=== FILE: README.md ===
# Session, JSON-RPC and WebSocket core of the FLE server, in Dafny

This project models the sequential core of the FLE server, a Go backend. The
modelled parts are:

- the session store, keyed by human-friendly codes of the form `adjective-noun-number`;
- the JSON-RPC 2.0 envelope, its validation and method dispatch;
- the WebSocket hub's connection registry with each connection's bounded send queue;
- configuration validation.

Every operation is a pure function from a state to a new state, except the few
that enumerate a Go map, which are methods. Time is an explicit `now` argument
in nanoseconds. The random word generator, JSON encoding and decoding, and
handler and schema functions are all parameters.

One Dafny module per Go file:

| module | file | models |
|---|---|---|
| `SessionGenerator` | `session/generator.go` | code format check, normalisation, generation from an external word oracle |
| `SessionTypes` | `session/types.go` | sessions, session errors and their text, sentinels, default options |
| `SessionManager` | `session/manager.go` | the session store: create with retries, get, delete, update, list, cleanup, strict expiry |
| `RpcTypes` | `jsonrpc/types.go` | request, response and error objects, constructors, error-code ranges, error text |
| `RpcValidator` | `jsonrpc/validator.go` | the struct-tag rules the envelopes use (a custom tag carries the check function registered for it), fast-fail validation, error messages |
| `RpcRouter` | `jsonrpc/router.go` | the method registry and the routing pipeline |
| `WsClient` | `websocket/client.go` | send queue, JSON-RPC message processing, writer batching, timing constants |
| `WsHub` | `websocket/hub.go` | client registry, session index, targeted send, broadcast, eviction |
| `ServerConfig` | `config/config.go` | defaults, ordered validation, environment and log-level readings, listen address |

There are also four support modules:

- `Wrappers`: `Option`, `Result` and `Outcome`.
- `Json`: JSON values and bytes.
- `Text`: the Go string and `fmt` functions the code relies on:
  - `strings.TrimSpace`, `strings.ToLower`, `strings.Split` and `strings.Join`;
  - `%d` printing and `fmt.Sscanf("%d")` scanning;
  - UTF-8 byte length.
- `Collections`: listing a map's keys.

Two behaviours of the hub are kept as written, and lemmas state them:

- Unregistering a client deletes the session-index entry for its code, even
  when that entry now points to a newer client.
- The "close the channel if it is not already closed" test receives a queued
  message instead when the queue is not empty. The queue loses that message
  and stays open.

Likewise, `CreateSession` keeps the collision flag across attempts whose
candidate fails the format check. It consults cancellation only after a
collision.

## Model

| member | source | states |
|---|---|---|
| SessionGenerator.IsValidFormat | server/internal/session/generator.go:46-87 | defines the format check on the normal form; SessionCodeRulesAgree, ValidityIsNormalizationInvariant, CaseInsensitive and GeneratedCodeIsValid state its properties |
| SessionGenerator.ValidSuffix | server/internal/session/generator.go:70-86 | defines the suffix rule (one or two bytes, a leading integer in [1,99]); SuffixOfNumeral and the suffix example lemmas state what it accepts |
| SessionGenerator.NormalizeCode | server/internal/session/generator.go:91-93 | the normal form is no longer than the input, has no upper-case letter and no edge blank, and is empty exactly when the input is all white space |
| SessionGenerator.NormalizeIdempotent | server/internal/session/generator.go:91-93 | normalising twice gives the same code as normalising once |
| SessionGenerator.CaseInsensitive | server/internal/session/generator.go:52 | two codes that agree after ASCII lower-casing have the same normal form and the same validity |
| SessionGenerator.ValidityIsNormalizationInvariant | server/internal/session/generator.go:46-87 | a code is valid exactly when its normal form is valid |
| SessionGenerator.SuffixAccepted | server/internal/session/generator.go:70-86 | the suffixes "01", "4a" and "99" pass the one-to-two-byte, leading-integer-in-[1,99] rule |
| SessionGenerator.LeadingZeroSuffix | server/internal/session/generator.go:76-84 | "01" is accepted because `%d` reads 1 |
| SessionGenerator.TrailingJunkSuffix | server/internal/session/generator.go:76-84 | "4a" is accepted because `%d` stops at the first non-digit |
| SessionGenerator.LargestSuffix | server/internal/session/generator.go:82-84 | "99" is the upper bound and is accepted |
| SessionGenerator.SuffixOfNumeral | server/internal/session/generator.go:70-86 | any digit run with value in [1,99], followed by a non-digit tail and at most two bytes long, is an accepted suffix |
| SessionGenerator.SuffixRejected | server/internal/session/generator.go:70-86 | "0", "100", "abc" and "42.5" are rejected |
| SessionGenerator.GenerateCode | server/internal/session/generator.go:31-41 | a generated code splits on '-' into the two words and the decimal number in [1,99], that number scans back, and the code passes the format check |
| SessionGenerator.LowerWord | server/internal/session/generator.go:33 | lower-casing keeps an oracle word non-empty and free of dashes and white space |
| SessionGenerator.JoinThree | server/internal/session/generator.go:40 | joining three parts with '-' is the concatenation with dashes between them |
| SessionGenerator.NormalizeGenerated | server/internal/session/generator.go:91-93 | normalising a generated code lower-cases the words and keeps the digits |
| SessionGenerator.PrintedSuffixIsValid | server/internal/session/generator.go:70-86 | the printed number 1..99 scans back to itself and is a valid suffix |
| SessionGenerator.WordIsNotBlank | server/internal/session/generator.go:63-67 | a word that does not start with a blank survives the non-blank-part check |
| SessionGenerator.WellFormedGenerated | server/internal/session/generator.go:58-86 | the lower-cased parts of a generated code meet every structural rule |
| SessionGenerator.GeneratedCodeIsValid | server/internal/session/generator.go:31-87 | every generated code has exactly three parts with a numeric suffix in [1,99] and passes `IsValidFormat` |
| SessionTypes.ErrorText | server/internal/session/types.go:31-36 | the text starts with the message, equals it exactly when nothing is wrapped, and otherwise continues with ": " and the wrapped text |
| SessionTypes.Unwrap | server/internal/session/types.go:39-41 | nothing is unwrapped exactly when the error text is the bare message; otherwise the text ends with the unwrapped error |
| SessionTypes.SentinelsAreDistinct | server/internal/session/types.go:44-68 | the four sentinels have pairwise distinct codes, wrap nothing and print exactly their message |
| SessionTypes.DefaultSessionOptions | server/internal/session/types.go:83-89 | ten retries, a 24-hour timeout and an empty, non-nil initial-data map |
| SessionManager.IsExpired | server/internal/session/manager.go:278-280 | defines expiry as strictly more than the timeout since the last access; GetSession, UpdateSessionData and Cleanup state its consequences |
| SessionManager.NewManager | server/internal/session/manager.go:37-54 | a new store is empty and uses the given options, or the defaults when none are given |
| SessionManager.CreateErrorText | server/internal/session/manager.go:91-103 | exhaustion reports the generation-failed sentinel; cancellation reports "session creation cancelled:" followed by the context error |
| SessionManager.SearchCode | server/internal/session/manager.go:66-98 | defines the retry loop with its carried `code` and `collision` variables; its properties are those of SearchCodeSpec and SearchCodeTakesFirstFree |
| SessionManager.SearchCodeSpec | server/internal/session/manager.go:69-98 | a code found after some valid candidate is the free key of one of them; with no valid candidate the loop ends on its carried variables; it aborts only on a valid, colliding, cancelled attempt, and exhausts only when every valid candidate collided on a live context |
| SessionManager.SearchCodeTakesFirstFree | server/internal/session/manager.go:69-98 | the code found is the key of the first valid candidate whose key is free: every valid candidate before it collided and was not cancelled |
| SessionManager.SearchFreshCodeSpec | server/internal/session/manager.go:69-98 | over the store with the real format check: a code found after some well-formed candidate is absent from the store, well formed and its own normal form; exhaustion means every well-formed candidate collided; cancellation needs a well-formed, colliding, cancelled attempt |
| SessionManager.NormalizedCodesAreCanonical | server/internal/session/manager.go:83 | the normal form of a valid code is valid and is its own normal form |
| SessionManager.CreateSession | server/internal/session/manager.go:59-127 | failure leaves the store unchanged; success stores one session with both timestamps `now` and the initial data (empty for nil); when some allowed candidate was well formed, its key was absent before, is valid and normalised, and the store grows by one; exhaustion means every well-formed candidate collided, cancellation needs a cancelled collision |
| SessionManager.SearchIgnoresLaterAttempts | server/internal/session/manager.go:69 | attempts beyond the last allowed one never influence the search |
| SessionManager.CreateUsesAtMostMaxRetriesPlusOne | server/internal/session/manager.go:69 | only the first MaxRetries+1 candidates matter |
| SessionManager.CancellationIgnoredWithoutCollision | server/internal/session/manager.go:91-97 | a free valid first candidate is used even if the context is already cancelled |
| SessionManager.AllCollisionsExhaust | server/internal/session/manager.go:69-98 | if every remaining valid candidate collides and nothing cancels, the search ends in exhaustion |
| SessionManager.CreateFailsWhenEveryCodeCollides | server/internal/session/manager.go:100-103 | when every allowed candidate collides, creation fails with code-generation-failed and the store is unchanged |
| SessionManager.NegativeMaxRetriesStoresEmptyCode | server/internal/session/manager.go:66-105 | with negative MaxRetries the loop never runs and a session with the empty code is stored |
| SessionManager.CreatePreservesWellKeyed | server/internal/session/manager.go:105-124 | a successful creation keeps every key valid, normalised and equal to its session's code |
| SessionManager.GetSession | server/internal/session/manager.go:133-165 | an invalid code gives invalid-session-code and a missing one not-found, both without change; a strictly expired entry is deleted and reported expired; otherwise its last access becomes `now` |
| SessionManager.GetIgnoresCase | server/internal/session/manager.go:138-142 | lookups of codes that agree after lower-casing behave identically |
| SessionManager.ExpiredSessionIsGone | server/internal/session/manager.go:155-162 | after an expired lookup, the same code is not found |
| SessionManager.CreateThenGet | server/internal/session/manager.go:105-165 | a created session is found, in any letter case, until its timeout passes, with its initial data |
| SessionManager.DeleteSession | server/internal/session/manager.go:169-190 | the result is true exactly when the code is valid and its normal form is present; that key is then absent; an invalid code changes nothing |
| SessionManager.DeleteThenGet | server/internal/session/manager.go:169-190 | after deleting a valid code, looking it up reports not-found |
| SessionManager.UpdateSessionData | server/internal/session/manager.go:195-229 | only "" gives invalid-session-code; a missing key gives not-found; an expired entry is deleted; otherwise the patch keys are overwritten, every other key kept, and the last access set to `now` |
| SessionManager.UpdateMalformedIsNotFound | server/internal/session/manager.go:195-209 | a malformed non-empty code is reported as not found, not as invalid |
| SessionManager.ListSessions | server/internal/session/manager.go:240-250 | every stored code is listed exactly once |
| SessionManager.Cleanup | server/internal/session/manager.go:254-267 | exactly the unexpired sessions remain, unchanged |
| SessionManager.CleanupCountsRemoved | server/internal/session/manager.go:254-267 | the count returned is the number of expired sessions, and it plus what remains is the old size |
| SessionManager.CleanupIdempotent | server/internal/session/manager.go:254-267 | a second cleanup at the same instant removes nothing |
| SessionManager.WellKeyedInsert | server/internal/session/manager.go:118 | inserting a session under its own normalised valid code keeps the store well keyed |
| SessionManager.WellKeyedShrink | server/internal/session/manager.go:254-267 | removing entries keeps the store well keyed |
| SessionManager.GetPreservesWellKeyed | server/internal/session/manager.go:133-165 | lookups keep the store well keyed |
| SessionManager.DeletePreservesWellKeyed | server/internal/session/manager.go:169-190 | deletion keeps the store well keyed |
| SessionManager.UpdatePreservesWellKeyed | server/internal/session/manager.go:195-229 | updates keep the store well keyed |
| SessionManager.CleanupPreservesWellKeyed | server/internal/session/manager.go:254-267 | cleanup keeps the store well keyed |
| RpcTypes.IsNotification | server/internal/jsonrpc/types.go:47-49 | defines a notification as a request with a null id; NotificationsNeverAnswered and NewNotification state its consequences |
| RpcTypes.IsError | server/internal/jsonrpc/types.go:79-81 | defines an error response as one carrying an error object; SuccessIffNotError relates it to IsSuccess |
| RpcTypes.IsSuccess | server/internal/jsonrpc/types.go:84-86 | defines a success as a response with no error object; SuccessIffNotError relates it to IsError |
| RpcTypes.IsReservedErrorCode | server/internal/jsonrpc/types.go:249-251 | defines the reserved range [-32768, -32000]; ErrorCodeRanges states what lies in it |
| RpcTypes.IsServerErrorCode | server/internal/jsonrpc/types.go:254-256 | defines the server-error range; ErrorCodeRanges shows it inside the reserved range |
| RpcTypes.SuccessIffNotError | server/internal/jsonrpc/types.go:79-86 | a response is a success exactly when it is not an error |
| RpcTypes.IsValidErrorCode | server/internal/jsonrpc/types.go:242-246 | every integer is accepted |
| RpcTypes.ErrorCodeRanges | server/internal/jsonrpc/types.go:119-143 | server codes are reserved; the five standard codes are reserved, not server codes, and distinct |
| RpcTypes.NewError | server/internal/jsonrpc/types.go:179-184 | code and message kept, no data |
| RpcTypes.NewErrorWithData | server/internal/jsonrpc/types.go:187-193 | code, message and data kept; with null data it is `NewError` |
| RpcTypes.NewRequest | server/internal/jsonrpc/types.go:196-212 | version "2.0", method and id kept, params absent exactly when none are given, and a notification exactly when the id is null |
| RpcTypes.NewNotification | server/internal/jsonrpc/types.go:215-217 | always a notification with version "2.0" and the given method |
| RpcTypes.NewResponse | server/internal/jsonrpc/types.go:220-226 | a success with version "2.0", the result and the id |
| RpcTypes.NewErrorResponse | server/internal/jsonrpc/types.go:229-235 | an error response with version "2.0", the error, a null result and the id |
| RpcTypes.ErrorText | server/internal/jsonrpc/types.go:111-116 | the text starts "JSON-RPC error ", the code scans back from what follows, and it ends with ": message", plus " (data: …)" exactly when data is present |
| RpcTypes.RenderedCodeScans | server/internal/jsonrpc/types.go:113-115 | the printed code followed by ':' scans back to the code |
| RpcValidator.SessionCodeRulesAgree | server/internal/jsonrpc/validator.go:95-133 | the validator's session-code rule accepts exactly the codes the generator's format check accepts |
| RpcValidator.VersionRuleExamples | server/internal/jsonrpc/validator.go:136-139 | "2.0" passes; "2", "2.0.0" and "" fail |
| RpcValidator.FirstFailure | server/internal/jsonrpc/validator.go:144-173 | no rule fails exactly when none is reported; a reported rule fails |
| RpcValidator.BuildMessage | server/internal/jsonrpc/validator.go:259-311 | every message begins "field '<name>'" |
| RpcValidator.Demand | server/internal/jsonrpc/validator.go:265-297 | every rule has a non-empty description |
| RpcValidator.DemandEndsWithValue | server/internal/jsonrpc/validator.go:268-297 | the `eq` and custom-rule messages end with the offending value in single quotes |
| RpcValidator.VersionExpectationText | server/internal/jsonrpc/validator.go:268-269 | the `eq=2.0` message expects "must equal '2.0', got '" |
| RpcValidator.VersionMismatchMessage | server/internal/jsonrpc/validator.go:268-269 | the version tag's `eq` message is "field 'jsonrpc' must equal '2.0', got '<version>'" |
| RpcValidator.FirstFailingField | server/internal/jsonrpc/validator.go:154-166 | no field fails exactly when none is reported; a reported field fails |
| RpcValidator.ValidateFields | server/internal/jsonrpc/validator.go:144-173 | at most one error, none exactly when every field passes, and the one reported names the first failing field and its first failing rule |
| RpcValidator.FirstFailureOfTwo | server/internal/jsonrpc/validator.go:154-166 | of two rules, the first failing one is reported |
| RpcValidator.FirstFailingFieldCons | server/internal/jsonrpc/validator.go:154-166 | the first failing field of a list is its head when the head fails, otherwise the rest's first failing field one place later |
| RpcValidator.ValidateFieldsCons | server/internal/jsonrpc/validator.go:154-166 | a failing first field is reported ahead of everything after it |
| RpcValidator.Validate | server/internal/jsonrpc/validator.go:144-173 | fast fail: at most one error, and none exactly when every field passes |
| RpcValidator.ValidateVar | server/internal/jsonrpc/validator.go:177-206 | at most one error, none exactly when every rule holds, and the error names field "value" and the first failing rule |
| RpcValidator.ValidateRequest | server/internal/jsonrpc/validator.go:209-221 | nil gives the single "request" required error; otherwise valid exactly when the version is "2.0" and the method non-empty, with (jsonrpc, required), (jsonrpc, eq) or (method, required) reported in that order |
| RpcValidator.RequestObjectErrors | server/internal/jsonrpc/types.go:27-34 | a request passes its tags exactly when the version is "2.0" and the method non-empty; a missing version fails `required`, a wrong one `eq`, and then an empty method fails `required` |
| RpcValidator.WrongVersionError | server/internal/jsonrpc/types.go:30 | a present but wrong version is the single error (jsonrpc, eq, the version, "2.0") with the exact message "field 'jsonrpc' must equal '2.0', got '<version>'" |
| RpcValidator.ErrorObjectErrors | server/internal/jsonrpc/types.go:96-108 | an error object is valid exactly when its code is non-zero and its message non-empty |
| RpcValidator.ValidateError | server/internal/jsonrpc/validator.go:239-251 | nil gives the single "error" required error; otherwise valid exactly when the code is non-zero and the message non-empty |
| RpcValidator.ValidateResponse | server/internal/jsonrpc/validator.go:224-236 | nil gives the single "response" required error; otherwise valid exactly when the version is "2.0" and a present error object has a non-zero code and a non-empty message; at most one error, a bad version reported ahead of the error object, whose zero code is reported under "code" |
| RpcValidator.ConstructedResponsesValidate | server/internal/jsonrpc/types.go:220-235 | responses built by the constructors pass validation |
| RpcValidator.ValidateSessionCode | server/internal/jsonrpc/validator.go:254-256 | no error exactly when the format check passes; "" fails through `required`, other bad codes through `sessioncode` |
| RpcValidator.SessionCodeVerdict | server/internal/jsonrpc/validator.go:254-256 | `required,sessioncode` accepts exactly the well-formed codes, and a non-empty malformed code is reported under `sessioncode` |
| RpcValidator.MissingSessionCode | server/internal/jsonrpc/validator.go:254-256 | an empty code gives exactly one error: field "value", tag `required`, message "field '' is required" |
| RpcValidator.RequiredMessageOfUnnamed | server/internal/jsonrpc/validator.go:266-267 | the `required` message for a bare variable reads "field '' is required" |
| RpcValidator.ErrorsText | server/internal/jsonrpc/validator.go:46-57 | "validation errors" when empty; for one error, "validation failed: " and its message |
| RpcValidator.ErrorsTextSnoc | server/internal/jsonrpc/validator.go:51-56 | each further error adds "; " and its message, so the text lists every message in order |
| RpcValidator.Messages | server/internal/jsonrpc/validator.go:51-54 | the messages of the errors, in order |
| RpcRouter.NewRouter | server/internal/jsonrpc/router.go:54-60 | a new registry is empty |
| RpcRouter.RegisterMethod | server/internal/jsonrpc/router.go:64-96 | succeeds exactly for a non-empty new name with a handler, adding only that name; otherwise fails with the matching message and changes nothing |
| RpcRouter.RegisterMethodWithValidation | server/internal/jsonrpc/router.go:99-109 | registers with both schemas and both checks switched on |
| RpcRouter.RegisterSimpleMethod | server/internal/jsonrpc/router.go:112-120 | registers with only a description |
| RpcRouter.UnregisterMethod | server/internal/jsonrpc/router.go:123-133 | succeeds exactly for a registered name, removing only it; otherwise fails with no change |
| RpcRouter.RegisterThenUnregister | server/internal/jsonrpc/router.go:64-133 | unregistering what was just registered restores the registry |
| RpcRouter.GetMethods | server/internal/jsonrpc/router.go:145-155 | every registered name once |
| RpcRouter.HasMethod | server/internal/jsonrpc/router.go:136-142 | defines membership in the registry; RegisterMethod and UnregisterMethod state how it changes |
| RpcRouter.MethodCount | server/internal/jsonrpc/router.go:365-370 | defines the registry size; RegisterMethod and UnregisterMethod state how it changes |
| RpcRouter.GetMethodInfo | server/internal/jsonrpc/router.go:158-168 | the entry for a registered name, or a not-registered error |
| RpcRouter.Clear | server/internal/jsonrpc/router.go:357-362 | the registry is empty afterwards |
| RpcRouter.ValidateParams | server/internal/jsonrpc/router.go:278-303 | absent params are accepted without consulting the schema |
| RpcRouter.ValidateResult | server/internal/jsonrpc/router.go:306-320 | a nil result is accepted without consulting the schema |
| RpcRouter.CallHandler | server/internal/jsonrpc/router.go:323-332 | a return is a success; an error is passed on; a panic becomes "handler panic: …" |
| RpcRouter.RouteNotification | server/internal/jsonrpc/router.go:224-245 | the handler runs exactly when the method is known and its params are not rejected |
| RpcRouter.Route | server/internal/jsonrpc/router.go:173-221 | invalid envelopes get InvalidRequest, even notifications; valid notifications get nothing; every response carries the request id; unknown methods and rejected params get their codes; a success is the handler's result. The result-schema branch is stated by ResultRejectedIsInternalError; the response-validation branch cannot be taken for JSON-valued results, since every `NewResponse` validates (ConstructedResponsesValidate, SuccessfulCall) |
| RpcRouter.NotificationsNeverAnswered | server/internal/jsonrpc/router.go:180-183 | a valid notification produces no response, whatever the method and handler do |
| RpcRouter.InvalidNotificationIsAnswered | server/internal/jsonrpc/router.go:175-179 | a notification with a bad version still gets an InvalidRequest response with a null id |
| RpcRouter.HandlerNotCalledOnBadParams | server/internal/jsonrpc/router.go:191-199 | when params are rejected the outcome does not depend on the handler |
| RpcRouter.AbsentParamsReachHandler | server/internal/jsonrpc/router.go:278-281 | absent params skip the schema and reach the handler |
| RpcRouter.HandlerFailureIsInternalError | server/internal/jsonrpc/router.go:202-206 | a handler error or panic gives InternalError carrying the failure text |
| RpcRouter.SuccessfulCall | server/internal/jsonrpc/router.go:208-220 | a handler result accepted by the result schema gives exactly `NewResponse(result, id)` |
| RpcRouter.ResultRejectedIsInternalError | server/internal/jsonrpc/router.go:207-212 | a handler result its schema rejects is answered with InternalError whose data is "result validation failed: " followed by the schema's complaint |
| RpcRouter.RouteJSON | server/internal/jsonrpc/router.go:249-275 | undecodable bytes give a ParseError response with null id; notifications give nothing; otherwise the encoded routed response |
| WsClient.PingBeforePongDeadline | server/internal/websocket/client.go:19-22 | the ping period is 54 s, strictly less than the 60 s pong wait |
| WsClient.Send | server/internal/websocket/client.go:212-223 | below capacity the message is appended; at capacity it is dropped and nothing changes; capacity is never exceeded |
| WsClient.SendToFullQueueDrops | server/internal/websocket/client.go:218-222 | a full queue ignores any number of further messages |
| WsClient.ErrorReply | server/internal/websocket/client.go:294-304 | an error response with the given id, code and message, carrying the details as data when non-empty |
| WsClient.SendJsonRpcError | server/internal/websocket/client.go:294-327 | the encoded error response is queued if there is room, and dropped otherwise |
| WsClient.ProcessMessage | server/internal/websocket/client.go:242-291 | without a router one InternalError reply with null id is queued; a routed notification queues nothing; otherwise the routed bytes are queued when there is room |
| WsClient.NotificationQueuesNothing | server/internal/websocket/client.go:270-274 | a valid notification leaves the queue as it was |
| WsClient.WriterStep | server/internal/websocket/client.go:139-166 | a drained closed queue yields a close frame; otherwise one text frame holding all queued messages joined by newlines, and the queue is emptied |
| WsClient.BatchSplitsBack | server/internal/websocket/client.go:161-166 | splitting a batch frame on newlines gives back the messages when none contains a newline |
| WsHub.NewHub | server/internal/websocket/hub.go:60-69 | an empty hub satisfying the invariant |
| WsHub.NewClient | server/internal/websocket/hub.go:73-82 | a new, unregistered client with its code and an empty open queue; the invariant is kept |
| WsHub.Register | server/internal/websocket/hub.go:184-193 | the client joins and holds its code, displacing any earlier holder; other entries and all queues are kept |
| WsHub.CloseUnlessReadable | server/internal/websocket/hub.go:204-209 | a non-empty queue loses its head and keeps its closed flag; an empty queue ends up closed |
| WsHub.Unregister | server/internal/websocket/hub.go:197-217 | an unknown client changes nothing; a registered one leaves, its code's entry is deleted whoever holds it, and its queue goes through the close-unless-readable test |
| WsHub.Evict | server/internal/websocket/hub.go:137-143 | the client ends up unregistered with a closed queue, one message shorter if it had any; nothing else is touched |
| WsHub.Deliver | server/internal/websocket/hub.go:132-143 | with room only that queue grows by the message; otherwise the client is evicted |
| WsHub.SendToSession | server/internal/websocket/hub.go:121-144 | an unknown code changes nothing; with room only the holder's queue grows; with a full queue the holder is unregistered, its queue closed, and (under the invariant) exactly its code leaves the session index |
| WsHub.BroadcastOverFrame | server/internal/websocket/hub.go:235-246 | clients outside the snapshot are untouched and the session index only loses entries |
| WsHub.BroadcastOverQueues | server/internal/websocket/hub.go:235-239 | every snapshot client with room gets the message once and keeps its registration |
| WsHub.BroadcastOverEvicts | server/internal/websocket/hub.go:240-245 | every snapshot client with a full queue is evicted |
| WsHub.BroadcastOverDropsCodes | server/internal/websocket/hub.go:240-245 | every registered snapshot client with a full queue loses its code from the session index |
| WsHub.BroadcastOverKeeps | server/internal/websocket/hub.go:235-245 | a session entry survives unchanged unless a registered snapshot client holding its code was full |
| WsHub.Broadcast | server/internal/websocket/hub.go:222-247 | registered clients with room get the message; full ones are evicted and their codes leave the session index; every other session entry survives unchanged; unregistered clients are left alone; the hub invariant is kept |
| WsHub.GetSessionCodes | server/internal/websocket/hub.go:162-171 | every indexed session code once |
| WsHub.RegisterNewClient | server/internal/websocket/hub.go:73-193 | registering a new client keeps the invariant, indexes its code and adds one to the client count |
| WsHub.RegisterPreservesInv | server/internal/websocket/hub.go:184-193 | registering a client with an open queue keeps the invariant |
| WsHub.UnregisterPreservesInv | server/internal/websocket/hub.go:197-217 | unregistering keeps the invariant |
| WsHub.SendToSessionPreservesInv | server/internal/websocket/hub.go:121-144 | a targeted send keeps the invariant |
| WsHub.BroadcastOverPreservesInv | server/internal/websocket/hub.go:222-247 | a broadcast keeps the invariant |
| WsHub.UnregisterDropsNewerHolder | server/internal/websocket/hub.go:201 | unregistering a client whose code passed to a newer client leaves the newer client registered but unreachable by code |
| WsHub.UnregisterConsumesQueuedMessage | server/internal/websocket/hub.go:204-209 | unregistering a client with queued messages discards the oldest and leaves the queue open |
| WsHub.EvictionLeavesOneLess | server/internal/websocket/hub.go:137-143 | a send to a full queue leaves it closed with 255 messages |
| ServerConfig.DefaultConfig | server/internal/config/config.go:58-71 | the documented default values |
| ServerConfig.ValidateBasicFields | server/internal/config/config.go:147-157 | passes exactly when the port is in [1,65535] and the host is non-empty; a bad port is reported with its value |
| ServerConfig.ValidateLogLevel | server/internal/config/config.go:160-176 | passes exactly when the lower-cased level is debug, info, warn or error |
| ServerConfig.ValidateEnvironment | server/internal/config/config.go:179-194 | passes exactly when the lower-cased environment is development, production or test |
| ServerConfig.ValidateWebSocketSettings | server/internal/config/config.go:197-207 | passes exactly when both buffer sizes are positive |
| ServerConfig.ValidateConnectionSettings | server/internal/config/config.go:210-224 | passes exactly when connections, heartbeat and timeout are positive |
| ServerConfig.Validate | server/internal/config/config.go:122-144 | passes exactly when every field-level condition holds |
| ServerConfig.ValidateReportsFirstFailingGroup | server/internal/config/config.go:122-144 | a reported failure comes from a group all of whose predecessors pass |
| ServerConfig.DefaultConfigIsValid | server/internal/config/config.go:58-144 | the default configuration passes validation |
| ServerConfig.IsDevelopment | server/internal/config/config.go:227-229 | defines the case-insensitive "development" reading; EnvironmentReadings and EnvironmentIgnoresCase state its properties |
| ServerConfig.IsProduction | server/internal/config/config.go:232-234 | defines the case-insensitive "production" reading; EnvironmentReadings and EnvironmentIgnoresCase state its properties |
| ServerConfig.IsTest | server/internal/config/config.go:237-239 | defines the case-insensitive "test" reading; EnvironmentReadings and EnvironmentIgnoresCase state its properties |
| ServerConfig.EnvironmentReadings | server/internal/config/config.go:227-239 | at most one environment reading holds, and a valid configuration has one |
| ServerConfig.EnvironmentIgnoresCase | server/internal/config/config.go:227-239 | the readings depend only on the lower-cased environment |
| ServerConfig.LogLevelSlog | server/internal/config/config.go:242-255 | debug, warn and error map to their levels case-insensitively, and everything else to Info |
| ServerConfig.LogLevelIgnoresCase | server/internal/config/config.go:242-255 | the level is the same for the lower-cased setting |
| ServerConfig.Address | server/internal/config/config.go:258-260 | host, then ':', then a decimal that scans back to the port |
| ServerConfig.DefaultAddress | server/internal/config/config.go:258-260 | the defaults give "0.0.0.0:8080" |
| Text.TrimSpace | server/internal/session/generator.go:52 | the result has no edge blanks and is empty exactly when the input is all blanks |
| Text.ToLowerIdempotent | server/internal/session/generator.go:52 | lower-casing twice equals lower-casing once |
| Text.TrimLowerCommute | server/internal/session/generator.go:52 | trimming and lower-casing commute |
| Text.Split | server/internal/session/generator.go:55 | the pieces contain no separator and join back to the input |
| Text.SplitJoin | server/internal/session/generator.go:55 | splitting a join of separator-free pieces gives the pieces back |
| Text.JoinSnoc | server/internal/websocket/client.go:163-166 | appending one piece adds the separator and the piece |
| Text.JoinTextSnoc | server/internal/jsonrpc/validator.go:56 | joining one more string appends the separator and the string |
| Text.NatToDec | server/internal/session/generator.go:40 | the numeral is all digits, one long below 10 and two long below 100 |
| Text.DecValueOfNatToDec | server/internal/session/generator.go:76-80 | the printed numeral reads back to the number |
| Text.ByteLen | server/internal/session/generator.go:71 | the byte length is between the rune count and four times it, and equals it for ASCII |
| Text.ScanIntOfIntToDec | server/internal/session/generator.go:77 | `%d` reads back any printed integer followed by a non-digit |

## Left out

- Concurrency: the mutexes, the hub's `Run` goroutine and its channel hand-off, and the session manager's background cleanup and `Close`. Each operation is one atomic step.
  - Not modelled: `broadcastMessage` runs on the hub goroutine and calls `UnregisterClient`, which sends on a channel only that goroutine reads. That deadlocks.
  - Not modelled: a send racing with `SendToSession`'s close of the same channel panics.
- Socket I/O: `readPump`, deadlines, ping and pong handlers, read limits, `Close`, `IsConnected` and `ServeWS`. The timing constants are kept.
- The HTTP layer, logging and environment-variable loading (`config.Load`, `loadEnvInt`, `loadEnvString`): they are I/O.
- Word generation and randomness: the petname library and `math/rand` are an oracle. `GenerateCode` takes two words and a draw in [0,99); `CreateSession` takes the sequence of candidates and cancellation flags.
- JSON: encoding and decoding, and `%v` printing of arbitrary values, are function parameters.
- Json: numbers are integers; Go's float64 numbers, fractional ids such as 1.5 and the rounding of ids beyond 2^53 are not modelled.
- Unicode case folding: `ToLower` maps only ASCII letters. `TrimSpace` uses Go's full white-space table.
- SessionManager.CreateSession: requires at least MaxRetries+1 oracle attempts, as many as the loop can consume.
- SessionManager.GetSessionCount: the store size; it has no separate contract.
- RpcRouter.Route: a nil request (a Go panic) is not modelled.
- RpcRouter.RouteJSON: a `json.Marshal` failure and its fallback response are not modelled, because every modelled JSON value can be encoded.
- WsClient.ProcessMessage: the error branch after `RouteJSON` is not modelled, because the modelled `RouteJSON` cannot fail.
- RpcRouter.RegisterMethod: the Go registry stores the caller's `MethodInfo` pointer after setting its `Handler` field, so the caller sees that write and later changes to its struct change the registered method; the model stores an immutable value, so neither the write-back nor the aliasing is modelled.
- RpcRouter.Route: handler results are JSON values, so a Go struct result whose own validation tags fail, and the InternalError "response validation failed: ..." it would draw, are not modelled.
- SessionManager.GetSession: Go returns the stored `*Session` pointer, so the caller's handle sees later `LastAccessed` and `Data` writes, and writes through it change the store unchecked; the model returns a value copy, so this aliasing is not modelled.
- SessionManager.CreateSession: likewise returns the stored `*Session` pointer; the aliasing between the caller's handle and the store is not modelled.
- ServerConfig.Quote: `%q` escaping of quotes and control characters is not modelled.
- ServerConfig.Config: integers are unbounded; `strconv.Atoi` overflow belongs to loading, which is left out.
- WsClient.Send: requires an open queue. A send on a closed channel panics in Go.
- WsHub.Evict: requires an open queue. Closing a closed channel panics in Go.
- WsHub.SendToSession: requires that the target's queue is open, for the same reason.
- WsHub.Register: requires a client created by `NewClient`, that is, one with a queue.
- WsHub.GetClientCount: the client-set size; it has no separate contract.
- WsHub.HasSession: membership in the session index; it has no separate contract.
- The remaining go-playground validation tags: only `required`, `eq`, `min` on strings and the two custom rules appear in the envelope structs, so only those are modelled.

=== FILE: collections.dfy ===
/** Listing the keys of a Go map: every key once, in an unspecified order. */
module Collections {

  predicate Distinct<T(==)>(xs: seq<T>) {
    forall i, j :: 0 <= i < j < |xs| ==> xs[i] != xs[j]
  }

  /** Lists the elements of `s` in some order, as a `for k := range m` loop
      collecting keys does. */
  method Enumerate<T(==)>(s: set<T>) returns (xs: seq<T>)
    ensures |xs| == |s|
    ensures forall x :: x in xs <==> x in s
    ensures Distinct(xs)
  {
    xs := [];
    var rest := s;
    while rest != {}
      invariant rest <= s
      invariant forall x :: x in xs <==> x in s && x !in rest
      invariant |xs| + |rest| == |s|
      invariant Distinct(xs)
      decreases |rest|
    {
      var x :| x in rest;
      xs := xs + [x];
      rest := rest - {x};
    }
  }
}

=== FILE: json.dfy ===
/** JSON values and raw bytes, the payload vocabulary shared by the session
    store, the JSON-RPC layer and the WebSocket queues. */
module Json {

  /** A decoded JSON value, the shape `interface{}` takes after
      `encoding/json` has decoded it, except that numbers are integers
      here where Go decodes every number to a float64. Go's nil interface
      is `JNull`. */
  datatype Json =
    | JNull
    | JBool(b: bool)
    | JNum(n: int)
    | JStr(s: string)
    | JArr(items: seq<Json>)
    | JObj(members: map<string, Json>)

  newtype byte = b: int | 0 <= b < 256

  /** The payload of one WebSocket text frame. */
  type Bytes = seq<byte>

  /** The byte `'\n'` that separates batched messages in one frame. */
  const Newline: byte := 10
}

=== FILE: rpc_router.dfy ===
/** Method registry and request dispatch (server/internal/jsonrpc/router.go).
    Handlers and the params and result schemas are total functions supplied
    by the caller; JSON decoding and encoding are parameters of `RouteJSON`. */
module RpcRouter {
  import opened Wrappers
  import opened Json
  import opened Text
  import opened Collections
  import opened RpcTypes
  import opened RpcValidator

  /** What a handler call ends in: a result, a returned error (its text), or
      a panic (its printed value). */
  datatype HandlerOutcome = Returned(result: Json) | Failed(reason: string) | Panicked(value: string)

  type Handler = Option<Json> -> HandlerOutcome

  /** The verdict of a schema: `Reject` carries the text the router puts in
      the error's data. */
  datatype Verdict = Accept | Reject(detail: string)

  type Schema = Json -> Verdict

  /** The part of `MethodInfo` a caller supplies: schemas (`None` for nil),
      the description and the two switches. */
  datatype MethodSpec = MethodSpec(paramsSchema: Option<Schema>, resultSchema: Option<Schema>, description: string,
                                   validateParams: bool, validateResult: bool)

  /** `MethodInfo` as stored: the handler and the spec. */
  datatype MethodInfo = MethodInfo(handler: Handler, spec: MethodSpec)

  datatype Router = Router(methods: map<string, MethodInfo>)

  /** The new router and the call's error (`Pass` for nil). */
  datatype Update = Update(next: Router, outcome: Outcome<string>)

  /** `NewRouter`. */
  function NewRouter(): (r: Router)
    ensures MethodCount(r) == 0
  {
    Router(map[])
  }

  /** The spec stored when the caller gives none. */
  const EmptySpec: MethodSpec := MethodSpec(None, None, "", false, false)

  /** `RegisterMethod`: fails on an empty name, a nil handler or a name
      already present, in that order, leaving the registry unchanged;
      otherwise stores the handler under the name. */
  function RegisterMethod(r: Router, name: string, handler: Option<Handler>, spec: Option<MethodSpec>): (u: Update)
    ensures u.outcome.Pass? <==> name != "" && handler.Some? && name !in r.methods
    ensures u.outcome.Fail? ==> u.next == r
    ensures name == "" ==> u.outcome == Fail("method name cannot be empty")
    ensures name != "" && handler.None? ==> u.outcome == Fail("handler cannot be nil")
    ensures name != "" && handler.Some? && name in r.methods ==>
              u.outcome == Fail("method '" + name + "' is already registered")
    ensures u.outcome.Pass? ==>
              u.next.methods == r.methods[name := MethodInfo(handler.value, if spec.Some? then spec.value else EmptySpec)]
              && MethodCount(u.next) == MethodCount(r) + 1
  {
    if name == "" then Update(r, Fail("method name cannot be empty"))
    else if handler.None? then Update(r, Fail("handler cannot be nil"))
    else
      var errs := ValidateVar(Str(name), [Required, MinLen(1)]);
      if errs != [] then Update(r, Fail("invalid method name: " + ErrorsText(errs)))
      else if name in r.methods then Update(r, Fail("method '" + name + "' is already registered"))
      else
        var info := MethodInfo(handler.value, if spec.Some? then spec.value else EmptySpec);
        Update(Router(r.methods[name := info]), Pass)
  }

  /** `RegisterMethodWithValidation`: each switch is on exactly when its
      schema is given. */
  function RegisterMethodWithValidation(r: Router, name: string, handler: Option<Handler>,
                                        paramsSchema: Option<Schema>, resultSchema: Option<Schema>,
                                        description: string): (u: Update)
    ensures u.outcome.Pass? <==> name != "" && handler.Some? && name !in r.methods
    ensures u.outcome.Pass? ==> HasMethod(u.next, name) && u.next.methods[name].handler == handler.value
    ensures u.outcome.Pass? ==>
              var s := u.next.methods[name].spec;
              && s.paramsSchema == paramsSchema && s.resultSchema == resultSchema && s.description == description
              && (s.validateParams <==> paramsSchema.Some?) && (s.validateResult <==> resultSchema.Some?)
  {
    RegisterMethod(r, name, handler, Some(MethodSpec(paramsSchema, resultSchema, description,
                                                     paramsSchema.Some?, resultSchema.Some?)))
  }

  /** `RegisterSimpleMethod`: no schemas, validation off. */
  function RegisterSimpleMethod(r: Router, name: string, handler: Option<Handler>, description: string): (u: Update)
    ensures u.outcome.Pass? <==> name != "" && handler.Some? && name !in r.methods
    ensures u.outcome.Pass? ==> HasMethod(u.next, name) && u.next.methods[name].handler == handler.value
    ensures u.outcome.Pass? ==> u.next.methods[name].spec == EmptySpec.(description := description)
  {
    RegisterMethod(r, name, handler, Some(MethodSpec(None, None, description, false, false)))
  }

  /** `UnregisterMethod`: removes exactly the name, or fails without change
      when it is absent. */
  function UnregisterMethod(r: Router, name: string): (u: Update)
    ensures u.outcome.Pass? <==> name in r.methods
    ensures u.outcome.Fail? ==> u.next == r && u.outcome.error == "method '" + name + "' is not registered"
    ensures u.outcome.Pass? ==> u.next.methods == r.methods - {name} && MethodCount(u.next) == MethodCount(r) - 1
  {
    if name !in r.methods then Update(r, Fail("method '" + name + "' is not registered"))
    else Update(Router(r.methods - {name}), Pass)
  }

  /** Unregistering a method just registered gives back the registry. */
  lemma RegisterThenUnregister(r: Router, name: string, handler: Option<Handler>, spec: Option<MethodSpec>)
    requires RegisterMethod(r, name, handler, spec).outcome.Pass?
    ensures HasMethod(RegisterMethod(r, name, handler, spec).next, name)
    ensures UnregisterMethod(RegisterMethod(r, name, handler, spec).next, name) == Update(r, Pass)
  {
    var r1 := RegisterMethod(r, name, handler, spec).next;
    assert r1.methods - {name} == r.methods;
  }

  /** `HasMethod`. */
  predicate HasMethod(r: Router, name: string) {
    name in r.methods
  }

  /** `GetMethods`: every registered name once, in map order. */
  method GetMethods(r: Router) returns (names: seq<string>)
    ensures |names| == MethodCount(r)
    ensures forall n :: n in names <==> HasMethod(r, n)
    ensures Distinct(names)
  {
    names := Enumerate(r.methods.Keys);
  }

  /** `GetMethodInfo`. */
  function GetMethodInfo(r: Router, name: string): (res: Result<MethodInfo, string>)
    ensures res.Success? <==> HasMethod(r, name)
    ensures res.Success? ==> res.value == r.methods[name]
    ensures res.Failure? ==> res.error == "method '" + name + "' is not registered"
  {
    if name in r.methods then Success(r.methods[name]) else Failure("method '" + name + "' is not registered")
  }

  /** `MethodCount`. */
  function MethodCount(r: Router): nat {
    |r.methods|
  }

  /** `Clear`. */
  function Clear(r: Router): (r': Router)
    ensures MethodCount(r') == 0
    ensures forall n :: !HasMethod(r', n)
  {
    Router(map[])
  }

  // ---------------------------------------------------------------------
  // Dispatch
  // ---------------------------------------------------------------------

  /** `validateParams`: absent params always pass; otherwise the schema
      decides. */
  function ValidateParams(params: Option<Json>, schema: Schema): (v: Verdict)
    ensures params.None? ==> v == Accept
    ensures params.Some? ==> v == schema(params.value)
  {
    if params.None? then Accept else schema(params.value)
  }

  /** `validateResult`: a nil result always passes. */
  function ValidateResult(result: Json, schema: Schema): (v: Verdict)
    ensures result == JNull ==> v == Accept
    ensures result != JNull ==> v == schema(result)
  {
    if result == JNull then Accept else schema(result)
  }

  /** `callHandler`: a panic is recovered into an error. */
  function CallHandler(h: Handler, params: Option<Json>): (res: Result<Json, string>)
    ensures h(params).Returned? <==> res.Success?
    ensures h(params).Returned? ==> res.value == h(params).result
    ensures h(params).Failed? ==> res == Failure(h(params).reason)
    ensures h(params).Panicked? ==> res == Failure("handler panic: " + h(params).value)
  {
    match h(params)
    case Returned(v) => Success(v)
    case Failed(reason) => Failure(reason)
    case Panicked(v) => Failure("handler panic: " + v)
  }

  /** Whether the method's params must pass its schema before the handler
      runs. */
  predicate ChecksParams(s: MethodSpec) {
    s.validateParams && s.paramsSchema.Some?
  }

  predicate ChecksResult(s: MethodSpec) {
    s.validateResult && s.resultSchema.Some?
  }

  /** The params of a request are rejected by its method's schema. */
  predicate ParamsRejected(info: MethodInfo, params: Option<Json>) {
    ChecksParams(info.spec) && ValidateParams(params, info.spec.paramsSchema.value).Reject?
  }

  /** `createValidationError`: the first validation message becomes the
      data. */
  function ValidationFailure(errs: seq<ValidationError>): Error
    requires |errs| > 0
  {
    NewErrorWithData(InvalidRequest, "Request validation failed", JStr(errs[0].message))
  }

  /** `createParamsError`. */
  function ParamsFailure(detail: string): Error {
    NewErrorWithData(InvalidParams, "Parameter validation failed", JStr(detail))
  }

  /** `createInternalError`. */
  function InternalFailure(reason: string): Error {
    NewErrorWithData(InternalError, "Internal error", JStr(reason))
  }

  /** What `routeNotification` did; nothing of it reaches the client. */
  datatype NotificationTrace = UnknownMethod | ParamsIgnored | HandlerRan(outcome: HandlerOutcome)

  /** `routeNotification`: the handler runs unless the method is unknown or
      the params fail their schema. */
  function RouteNotification(r: Router, req: Request): (t: NotificationTrace)
    ensures t.UnknownMethod? <==> req.methodName !in r.methods
    ensures t.HandlerRan? <==> req.methodName in r.methods && !ParamsRejected(r.methods[req.methodName], req.params)
  {
    if req.methodName !in r.methods then UnknownMethod
    else
      var info := r.methods[req.methodName];
      if ParamsRejected(info, req.params) then ParamsIgnored
      else HandlerRan(info.handler(req.params))
  }

  /** `Route`: the envelope is validated first (so an invalid notification
      is still answered), then notifications are dispatched without reply,
      then method lookup, params schema, handler, result schema and response
      validation follow in that order. Every response carries the request's
      id. */
  function Route(r: Router, req: Request): (resp: Option<Response>)
    ensures ValidateRequest(Some(req)) != [] ==>
              resp == Some(NewErrorResponse(ValidationFailure(ValidateRequest(Some(req))), req.id))
    ensures ValidateRequest(Some(req)) == [] && IsNotification(req) ==> resp.None?
    ensures resp.None? ==> ValidateRequest(Some(req)) == [] && IsNotification(req)
    ensures resp.Some? ==> resp.value.id == req.id && resp.value.jsonrpc == Version
    ensures ValidateRequest(Some(req)) == [] && !IsNotification(req) && req.methodName !in r.methods ==>
              resp == Some(NewErrorResponse(ErrMethodNotFound, req.id))
    ensures ValidateRequest(Some(req)) == [] && !IsNotification(req) && req.methodName in r.methods
            && ParamsRejected(r.methods[req.methodName], req.params) ==>
              var info := r.methods[req.methodName];
              resp == Some(NewErrorResponse(ParamsFailure(ValidateParams(req.params, info.spec.paramsSchema.value).detail), req.id))
    ensures resp.Some? && IsSuccess(resp.value) ==>
              && req.methodName in r.methods
              && var info := r.methods[req.methodName];
              && info.handler(req.params).Returned?
              && resp.value == NewResponse(info.handler(req.params).result, req.id)
  {
    var errs := ValidateRequest(Some(req));
    if errs != [] then Some(NewErrorResponse(ValidationFailure(errs), req.id))
    else if IsNotification(req) then
      var _ := RouteNotification(r, req);
      None
    else if req.methodName !in r.methods then Some(NewErrorResponse(ErrMethodNotFound, req.id))
    else
      var info := r.methods[req.methodName];
      if ParamsRejected(info, req.params) then
        Some(NewErrorResponse(ParamsFailure(ValidateParams(req.params, info.spec.paramsSchema.value).detail), req.id))
      else
        match CallHandler(info.handler, req.params)
        case Failure(reason) => Some(NewErrorResponse(InternalFailure(reason), req.id))
        case Success(result) =>
          if ChecksResult(info.spec) && ValidateResult(result, info.spec.resultSchema.value).Reject? then
            var detail := ValidateResult(result, info.spec.resultSchema.value).detail;
            Some(NewErrorResponse(InternalFailure("result validation failed: " + detail), req.id))
          else
            var response := NewResponse(result, req.id);
            var rerrs := ValidateResponse(Some(response));
            if rerrs != [] then
              Some(NewErrorResponse(InternalFailure("response validation failed: " + ErrorsText(rerrs)), req.id))
            else Some(response)
  }

  /** A well-formed notification is never answered, whatever the registry,
      the params or the handler. */
  lemma NotificationsNeverAnswered(r: Router, req: Request)
    requires req.jsonrpc == Version && req.methodName != "" && req.id == JNull
    ensures Route(r, req).None?
  {
  }

  /** An id-less request with a bad envelope is still answered with
      InvalidRequest. */
  lemma InvalidNotificationIsAnswered(r: Router, req: Request)
    requires req.id == JNull && req.jsonrpc != Version
    ensures Route(r, req).Some?
    ensures Route(r, req).value.error.Some? && Route(r, req).value.error.value.code == InvalidRequest
    ensures Route(r, req).value.id == JNull
  {
  }

  /** When the params fail their schema the handler is not consulted:
      swapping it for any other changes nothing. */
  lemma HandlerNotCalledOnBadParams(r: Router, req: Request, other: Handler)
    requires req.methodName in r.methods && ParamsRejected(r.methods[req.methodName], req.params)
    ensures var info := r.methods[req.methodName];
            Route(Router(r.methods[req.methodName := info.(handler := other)]), req) == Route(r, req)
  {
  }

  /** Absent params skip the schema: the handler runs. */
  lemma AbsentParamsReachHandler(r: Router, req: Request)
    requires req.jsonrpc == Version && req.methodName != "" && req.id != JNull
    requires req.methodName in r.methods && req.params.None?
    requires r.methods[req.methodName].handler(None).Failed?
    ensures Route(r, req) == Some(NewErrorResponse(InternalFailure(r.methods[req.methodName].handler(None).reason), req.id))
  {
  }

  /** A handler error or panic is reported as InternalError with the
      failure's text as data. */
  lemma HandlerFailureIsInternalError(r: Router, req: Request)
    requires req.jsonrpc == Version && req.methodName != "" && req.id != JNull
    requires req.methodName in r.methods && !ParamsRejected(r.methods[req.methodName], req.params)
    requires !r.methods[req.methodName].handler(req.params).Returned?
    ensures var resp := Route(r, req).value;
            && resp.error.Some? && resp.error.value.code == InternalError
            && resp.error.value.data == JStr(CallHandler(r.methods[req.methodName].handler, req.params).error)
  {
  }

  /** A handler result that passes its schema (or has none) is answered
      with exactly `NewResponse(result, id)`. */
  lemma SuccessfulCall(r: Router, req: Request)
    requires req.jsonrpc == Version && req.methodName != "" && req.id != JNull
    requires req.methodName in r.methods && !ParamsRejected(r.methods[req.methodName], req.params)
    requires r.methods[req.methodName].handler(req.params).Returned?
    requires var info := r.methods[req.methodName];
             !(ChecksResult(info.spec) && ValidateResult(info.handler(req.params).result, info.spec.resultSchema.value).Reject?)
    ensures Route(r, req) == Some(NewResponse(r.methods[req.methodName].handler(req.params).result, req.id))
  {
    ConstructedResponsesValidate(r.methods[req.methodName].handler(req.params).result, ErrInternal, req.id);
  }

  /** A handler result that its schema rejects is answered with
      InternalError, the schema's complaint prefixed by "result validation
      failed: " as data. */
  lemma ResultRejectedIsInternalError(r: Router, req: Request)
    requires req.jsonrpc == Version && req.methodName != "" && req.id != JNull
    requires req.methodName in r.methods && !ParamsRejected(r.methods[req.methodName], req.params)
    requires r.methods[req.methodName].handler(req.params).Returned?
    requires var info := r.methods[req.methodName];
             ChecksResult(info.spec) && ValidateResult(info.handler(req.params).result, info.spec.resultSchema.value).Reject?
    ensures var info := r.methods[req.methodName];
            var detail := ValidateResult(info.handler(req.params).result, info.spec.resultSchema.value).detail;
            Route(r, req) == Some(NewErrorResponse(InternalFailure("result validation failed: " + detail), req.id))
    ensures Route(r, req).value.error.value.code == InternalError
  {
  }

  /** `RouteJSON`: `decode` is `json.Unmarshal` into a request (`None` when
      it fails) and `encode` is `json.Marshal` of a response. */
  function RouteJSON(r: Router, bytes: Bytes, decode: Bytes -> Option<Request>, encode: Response -> Bytes): (out: Option<Bytes>)
    ensures decode(bytes).None? ==> out == Some(encode(NewErrorResponse(ErrParse, JNull)))
    ensures decode(bytes).Some? ==>
              (out.None? <==> Route(r, decode(bytes).value).None?)
              && (out.Some? ==> out.value == encode(Route(r, decode(bytes).value).value))
  {
    match decode(bytes)
    case None => Some(encode(NewErrorResponse(ErrParse, JNull)))
    case Some(req) =>
      match Route(r, req)
      case None => None
      case Some(resp) => Some(encode(resp))
  }
}

=== FILE: rpc_types.dfy ===
/** The JSON-RPC 2.0 envelope: requests, responses, error objects, the
    standard error codes and their ranges
    (server/internal/jsonrpc/types.go). A Go `nil` id, result or data is
    `JNull`; absent params are `None`. */
module RpcTypes {
  import opened Wrappers
  import opened Json
  import opened Text

  /** The only protocol version the server speaks. */
  const Version: string := "2.0"

  datatype Request = Request(jsonrpc: string, methodName: string, params: Option<Json>, id: Json)

  /** An error object: a code, a short message and optional data. */
  datatype Error = Error(code: int, message: string, data: Json)

  /** A response carries a result or an error (`None` for no error) and the
      id of the request it answers. */
  datatype Response = Response(jsonrpc: string, result: Json, error: Option<Error>, id: Json)

  /** `IsNotification`: a request without an id (absent and explicit null
      are the same to the server) expects no response. */
  predicate IsNotification(r: Request) {
    r.id == JNull
  }

  /** `IsError`. */
  predicate IsError(r: Response) {
    r.error.Some?
  }

  /** `IsSuccess`. */
  predicate IsSuccess(r: Response) {
    r.error.None?
  }

  /** A response is exactly one of a success and an error. */
  lemma SuccessIffNotError(r: Response)
    ensures IsSuccess(r) <==> !IsError(r)
  {
  }

  // Standard error codes (section 5.1 of the JSON-RPC 2.0 Specification).
  const ParseError: int := -32700
  const InvalidRequest: int := -32600
  const MethodNotFound: int := -32601
  const InvalidParams: int := -32602
  const InternalError: int := -32603
  const ServerErrorStart: int := -32099
  const ServerErrorEnd: int := -32000

  // The predefined error objects.
  const ErrParse: Error := Error(ParseError, "Parse error", JNull)
  const ErrInvalidRequest: Error := Error(InvalidRequest, "Invalid Request", JNull)
  const ErrMethodNotFound: Error := Error(MethodNotFound, "Method not found", JNull)
  const ErrInvalidParams: Error := Error(InvalidParams, "Invalid params", JNull)
  const ErrInternal: Error := Error(InternalError, "Internal error", JNull)

  function StandardErrors(): seq<Error> {
    [ErrParse, ErrInvalidRequest, ErrMethodNotFound, ErrInvalidParams, ErrInternal]
  }

  /** `IsValidErrorCode`: the protocol reserves ranges but forbids no
      integer. */
  function IsValidErrorCode(code: int): (b: bool)
    ensures b
  {
    true
  }

  /** `IsReservedErrorCode`. */
  predicate IsReservedErrorCode(code: int) {
    -32768 <= code <= -32000
  }

  /** `IsServerErrorCode`. */
  predicate IsServerErrorCode(code: int) {
    ServerErrorStart <= code <= ServerErrorEnd
  }

  /** The server-error range lies inside the reserved range, and the five
      predefined errors carry distinct reserved codes outside the
      server-error range. */
  lemma ErrorCodeRanges(code: int)
    ensures IsServerErrorCode(code) ==> IsReservedErrorCode(code)
    ensures forall i :: 0 <= i < |StandardErrors()| ==>
              IsReservedErrorCode(StandardErrors()[i].code) && !IsServerErrorCode(StandardErrors()[i].code)
    ensures forall i, j :: 0 <= i < j < |StandardErrors()| ==> StandardErrors()[i].code != StandardErrors()[j].code
  {
  }

  /** `NewError`: code and message as given, no data. */
  function NewError(code: int, message: string): (e: Error)
    ensures e.code == code && e.message == message && e.data == JNull
  {
    Error(code, message, JNull)
  }

  /** `NewErrorWithData`: code, message and data as given. */
  function NewErrorWithData(code: int, message: string, data: Json): (e: Error)
    ensures e.code == code && e.message == message && e.data == data
    ensures data == JNull ==> e == NewError(code, message)
  {
    Error(code, message, data)
  }

  /** `NewRequest`: version 2.0, name and id as given; nil params leave
      the params member absent. Marshalling the params cannot fail on a
      `Json` value, so the Go error result is not modelled. */
  function NewRequest(name: string, params: Json, id: Json): (r: Request)
    ensures r.jsonrpc == Version && r.methodName == name && r.id == id
    ensures r.params.None? <==> params == JNull
    ensures r.params.Some? ==> r.params.value == params
    ensures IsNotification(r) <==> id == JNull
  {
    Request(Version, name, if params == JNull then None else Some(params), id)
  }

  /** `NewNotification`: a request with a nil id. */
  function NewNotification(name: string, params: Json): (r: Request)
    ensures IsNotification(r)
    ensures r.jsonrpc == Version && r.methodName == name
    ensures r.params.None? <==> params == JNull
  {
    NewRequest(name, params, JNull)
  }

  /** `NewResponse`: a success response. */
  function NewResponse(result: Json, id: Json): (r: Response)
    ensures IsSuccess(r) && !IsError(r)
    ensures r.jsonrpc == Version && r.result == result && r.id == id
  {
    Response(Version, result, None, id)
  }

  /** `NewErrorResponse`: an error response without a result. */
  function NewErrorResponse(e: Error, id: Json): (r: Response)
    ensures IsError(r) && !IsSuccess(r)
    ensures r.jsonrpc == Version && r.error == Some(e) && r.result == JNull && r.id == id
  {
    Response(Version, JNull, Some(e), id)
  }

  const ErrorTextPrefix: string := "JSON-RPC error "

  /** `Error.Error`; `show` is the `%v` rendering of the data. The code can
      be read back from the text, and the data part appears exactly when
      there is data. */
  function ErrorText(e: Error, show: Json -> string): (r: string)
    ensures |r| > |ErrorTextPrefix| && r[..|ErrorTextPrefix|] == ErrorTextPrefix
    ensures ScanInt(r[|ErrorTextPrefix|..]) == Some(e.code)
    ensures e.data == JNull ==> EndsWith(r, ": " + e.message)
    ensures e.data != JNull ==> EndsWith(r, ": " + e.message + " (data: " + show(e.data) + ")")
  {
    var tail := ": " + e.message + (if e.data != JNull then " (data: " + show(e.data) + ")" else "");
    RenderedCodeScans(e.code, tail);
    if e.data != JNull then
      assert tail == ": " + e.message + " (data: " + show(e.data) + ")";
      ErrorTextPrefix + IntToDec(e.code) + tail
    else
      assert tail == ": " + e.message;
      ErrorTextPrefix + IntToDec(e.code) + tail
  }

  /** The decimal code right after the prefix scans back to the code when
      what follows starts with a colon. */
  lemma RenderedCodeScans(code: int, tail: string)
    requires |tail| > 0 && tail[0] == ':'
    ensures var r := ErrorTextPrefix + IntToDec(code) + tail;
      && |r| > |ErrorTextPrefix| && r[..|ErrorTextPrefix|] == ErrorTextPrefix
      && ScanInt(r[|ErrorTextPrefix|..]) == Some(code)
      && EndsWith(r, tail)
  {
    var r := ErrorTextPrefix + IntToDec(code) + tail;
    assert r[|ErrorTextPrefix|..] == IntToDec(code) + tail;
    ScanIntOfIntToDec(code, tail);
    assert r[|r| - |tail|..] == tail;
  }

  predicate EndsWith(s: string, suffix: string) {
    |suffix| <= |s| && s[|s| - |suffix|..] == suffix
  }
}

=== FILE: rpc_validator.dfy ===
/** Envelope validation (server/internal/jsonrpc/validator.go): the
    struct-tag rules the envelope types use, evaluated field by field and
    rule by rule, reporting only the first failure. */
module RpcValidator {
  import opened Wrappers
  import opened Text
  import opened SessionGenerator
  import opened RpcTypes

  /** The value a rule inspects. */
  datatype FieldValue = Str(s: string) | Int(i: int) | Nil

  /** The validation tags the envelope types use. `MinLen(n)` is `min=n`;
      `Custom(tag, accepts)` is a tag registered with its check function. */
  datatype Rule = Required | Eq(param: string) | MinLen(n: nat) | Custom(tag: string, accepts: string -> bool)

  /** A struct field: its JSON name, its value and its tag's rules in
      order. */
  datatype Field = Field(name: string, value: FieldValue, rules: seq<Rule>)

  datatype ValidationError = ValidationError(field: string, tag: string, value: FieldValue, param: string, message: string)

  /** `%v` of a field value. */
  function Show(v: FieldValue): string {
    match v
    case Str(s) => s
    case Int(i) => IntToDec(i)
    case Nil => "<nil>"
  }

  function Tag(rule: Rule): string {
    match rule
    case Required => "required"
    case Eq(_) => "eq"
    case MinLen(_) => "min"
    case Custom(t, _) => t
  }

  function Param(rule: Rule): string {
    match rule
    case Eq(p) => p
    case MinLen(n) => NatToDec(n)
    case _ => ""
  }

  /** `validateSessionCode`, written out as the validator does it rather
      than by calling the generator. */
  predicate ValidatorSessionCode(code: string) {
    && code != ""
    && var parts := Split(ToLower(TrimSpace(code)), '-');
    && |parts| == 3
    && (forall i :: 0 <= i < |parts| ==> TrimSpace(parts[i]) != "")
    && 0 < ByteLen(parts[2]) <= 2
    && var n := ScanInt(parts[2]);
    && n.Some? && 1 <= n.value <= 99
  }

  /** The two registered custom tags. */
  const SessionCode := Custom("sessioncode", ValidatorSessionCode)
  const JsonRpcVersion := Custom("jsonrpcversion", ValidatorJsonRpcVersion)

  /** The validator's session-code rule and the generator's format check
      accept exactly the same strings. */
  lemma SessionCodeRulesAgree(code: string)
    ensures ValidatorSessionCode(code) <==> IsValidFormat(code)
  {
  }

  /** `validateJSONRPCVersion`: exactly "2.0". */
  predicate ValidatorJsonRpcVersion(version: string) {
    version == Version
  }

  lemma VersionRuleExamples()
    ensures ValidatorJsonRpcVersion("2.0")
    ensures !ValidatorJsonRpcVersion("2") && !ValidatorJsonRpcVersion("2.0.0") && !ValidatorJsonRpcVersion("")
  {
  }

  /** Whether a value passes a rule. `required` rejects the zero value;
      `min` on a string counts runes. */
  predicate Holds(rule: Rule, v: FieldValue) {
    match rule
    case Required => (v.Str? && v.s != "") || (v.Int? && v.i != 0)
    case Eq(p) => Show(v) == p && !v.Nil?
    case MinLen(n) => (v.Str? && |v.s| >= n) || (v.Int? && v.i >= n)
    case Custom(_, accepts) => v.Str? && accepts(v.s)
  }

  /** The first rule of a tag that the value fails; the rules after it are
      not evaluated. */
  function FirstFailure(rules: seq<Rule>, v: FieldValue): (r: Option<nat>)
    ensures r.None? <==> forall k :: 0 <= k < |rules| ==> Holds(rules[k], v)
    ensures r.Some? ==> r.value < |rules| && !Holds(rules[r.value], v)
                        && forall k :: 0 <= k < r.value ==> Holds(rules[k], v)
  {
    if |rules| == 0 then None
    else if !Holds(rules[0], v) then Some(0)
    else
      match FirstFailure(rules[1..], v)
      case None => None
      case Some(k) => Some(k + 1)
  }

  /** `buildErrorMessage` for the rules modelled: the quoted field name,
      then what the rule demands and the offending value. */
  function BuildMessage(field: string, rule: Rule, v: FieldValue): (m: string)
    ensures |m| > 8 + |field| && m[..8 + |field|] == "field '" + field + "'"
  {
    var head := "field '" + field + "'";
    var m := head + Demand(rule, v);
    assert m[..|head|] == head;
    m
  }

  /** The part of a message after the field name. The byte length of the
      printed value is what a failed `min` on a string reports; the other
      messages end with the offending value in quotes. */
  function Demand(rule: Rule, v: FieldValue): (d: string)
    ensures |d| > 0
  {
    match rule
    case Required => " is required"
    case MinLen(n) =>
      if v.Str? then " must be at least " + NatToDec(n) + " characters long, got " + NatToDec(ByteLen(Show(v)))
      else " must be at least " + NatToDec(n) + ", got '" + Show(v) + "'"
    case _ => Expectation(rule) + Show(v) + "'"
  }

  /** What an `eq` or custom rule expected, up to the opening quote of the
      value it got. */
  function Expectation(rule: Rule): string {
    match rule
    case Eq(p) => " must equal '" + p + "', got '"
    case Custom(t, _) =>
      if t == "sessioncode" then SessionCodeExpectation
      else if t == "jsonrpcversion" then VersionExpectation
      else " failed validation rule '" + t + "' with value '"
    case _ => ""
  }

  const SessionCodeExpectation := " must be a valid session code in format 'adjective-noun-number' (e.g., 'happy-panda-42'), got '"
  const VersionExpectation := " must be exactly '2.0' for JSON-RPC 2.0 compliance, got '"

  /** A field that passes all its rules. */
  predicate FieldPasses(f: Field) {
    forall k :: 0 <= k < |f.rules| ==> Holds(f.rules[k], f.value)
  }

  /** The error reported for the first failing rule of a field; `shown` is
      the field name the message uses. */
  function FieldError(f: Field, k: nat, name: string, shown: string): ValidationError
    requires k < |f.rules|
  {
    ValidationError(name, Tag(f.rules[k]), f.value, Param(f.rules[k]), BuildMessage(shown, f.rules[k], f.value))
  }

  /** The first field, in declaration order, that fails one of its rules. */
  function FirstFailingField(fields: seq<Field>): (r: Option<nat>)
    ensures r.None? <==> forall i :: 0 <= i < |fields| ==> FieldPasses(fields[i])
    ensures r.Some? ==> r.value < |fields| && !FieldPasses(fields[r.value])
                        && forall j :: 0 <= j < r.value ==> FieldPasses(fields[j])
  {
    if |fields| == 0 then None
    else if FirstFailure(fields[0].rules, fields[0].value).Some? then Some(0)
    else
      match FirstFailingField(fields[1..])
      case None => None
      case Some(i) => Some(i + 1)
  }

  /** Fast-fail validation of fields in declaration order: no error when
      every field passes, otherwise exactly one error, naming the first
      failing field and its first failing rule. */
  function ValidateFields(fields: seq<Field>): (errs: seq<ValidationError>)
    ensures |errs| <= 1
    ensures |errs| == 0 <==> forall i :: 0 <= i < |fields| ==> FieldPasses(fields[i])
    ensures |errs| == 1 ==>
              var i := FirstFailingField(fields).value;
              var k := FirstFailure(fields[i].rules, fields[i].value).value;
              && i < |fields| && k < |fields[i].rules|
              && (forall j :: 0 <= j < i ==> FieldPasses(fields[j]))
              && (forall j :: 0 <= j < k ==> Holds(fields[i].rules[j], fields[i].value))
              && !Holds(fields[i].rules[k], fields[i].value)
              && errs[0] == FieldError(fields[i], k, fields[i].name, fields[i].name)
  {
    match FirstFailingField(fields)
    case None => []
    case Some(i) =>
      var k := FirstFailure(fields[i].rules, fields[i].value).value;
      [FieldError(fields[i], k, fields[i].name, fields[i].name)]
  }

  /** Rules are tried in order: the first of two that fails is reported. */
  lemma FirstFailureOfTwo(a: Rule, b: Rule, v: FieldValue)
    ensures FirstFailure([a, b], v) == if !Holds(a, v) then Some(0) else if !Holds(b, v) then Some(1) else None
  {
    assert [a, b][1..] == [b];
    assert [b][1..] == [];
  }

  /** The first failing field of a prefixed list: the head when it fails,
      otherwise the first failing field of the rest, one place later. */
  lemma FirstFailingFieldCons(f: Field, rest: seq<Field>)
    ensures FirstFailingField([f] + rest)
         == if FirstFailure(f.rules, f.value).Some? then Some(0)
            else match FirstFailingField(rest)
                 case None => None
                 case Some(i) => Some(i + 1)
  {
    assert ([f] + rest)[0] == f;
    assert ([f] + rest)[1..] == rest;
  }

  /** Fields are tried in order: validation stops at the first failing one. */
  lemma ValidateFieldsCons(f: Field, rest: seq<Field>)
    ensures ValidateFields([f] + rest)
         == match FirstFailure(f.rules, f.value)
            case Some(k) => [FieldError(f, k, f.name, f.name)]
            case None => ValidateFields(rest)
  {
    FirstFailingFieldCons(f, rest);
    assert ([f] + rest)[0] == f;
    if FirstFailure(f.rules, f.value).None? {
      match FirstFailingField(rest)
      case None =>
      case Some(i) => assert ([f] + rest)[i + 1] == rest[i];
    }
  }

  /** `Validate` on a struct described by its fields. */
  function Validate(fields: seq<Field>): (errs: seq<ValidationError>)
    ensures |errs| <= 1
    ensures |errs| == 0 <==> forall i :: 0 <= i < |fields| ==> FieldPasses(fields[i])
  {
    ValidateFields(fields)
  }

  /** `ValidateVar`: the field is reported as "value" while the message
      names the empty field name a bare variable has. */
  function ValidateVar(v: FieldValue, rules: seq<Rule>): (errs: seq<ValidationError>)
    ensures |errs| <= 1
    ensures |errs| == 0 <==> forall k :: 0 <= k < |rules| ==> Holds(rules[k], v)
    ensures |errs| == 1 ==>
              var k := FirstFailure(rules, v).value;
              && errs[0].field == "value" && errs[0].tag == Tag(rules[k])
              && errs[0].message == BuildMessage("", rules[k], v)
  {
    match FirstFailure(rules, v)
    case None => []
    case Some(k) => [FieldError(Field("", v, rules), k, "value", "")]
  }

  // ---------------------------------------------------------------------
  // The envelope types' tags
  // ---------------------------------------------------------------------

  function VersionField(version: string): Field {
    Field("jsonrpc", Str(version), [Required, Eq(Version)])
  }

  function RequestFields(r: Request): seq<Field> {
    [VersionField(r.jsonrpc), Field("method", Str(r.methodName), [Required, MinLen(1)])]
  }

  function ErrorFields(e: Error): seq<Field> {
    [Field("code", Int(e.code), [Required]), Field("message", Str(e.message), [Required, MinLen(1)])]
  }

  /** A response's own version tag, then the tags of a present error
      object; the result and id carry none. */
  function ResponseFields(r: Response): seq<Field> {
    [VersionField(r.jsonrpc)] + (if r.error.Some? then ErrorFields(r.error.value) else [])
  }

  /** The error reported for a nil envelope. */
  function NilError(what: string): ValidationError {
    ValidationError(what, "required", Nil, "", what + " cannot be nil")
  }

  /** `ValidateRequest`; `None` is a nil request. */
  function ValidateRequest(r: Option<Request>): (errs: seq<ValidationError>)
    ensures r.None? ==> errs == [NilError("request")]
    ensures r.Some? ==> (errs == [] <==> r.value.jsonrpc == Version && r.value.methodName != "")
    ensures r.Some? && r.value.jsonrpc == "" ==>
              |errs| == 1 && errs[0].field == "jsonrpc" && errs[0].tag == "required"
    ensures r.Some? && r.value.jsonrpc != "" && r.value.jsonrpc != Version ==>
              |errs| == 1 && errs[0].field == "jsonrpc" && errs[0].tag == "eq"
    ensures r.Some? && r.value.jsonrpc == Version && r.value.methodName == "" ==>
              |errs| == 1 && errs[0].field == "method" && errs[0].tag == "required"
  {
    if r.None? then [NilError("request")]
    else RequestObjectErrors(r.value); Validate(RequestFields(r.value))
  }

  /** A request fails on its version tag first (missing, then wrong), then
      on an empty method name. */
  lemma RequestObjectErrors(q: Request)
    ensures var errs := ValidateFields(RequestFields(q));
      && (errs == [] <==> q.jsonrpc == Version && q.methodName != "")
      && (q.jsonrpc == "" ==> |errs| == 1 && errs[0].field == "jsonrpc" && errs[0].tag == "required")
      && (q.jsonrpc != "" && q.jsonrpc != Version ==> |errs| == 1 && errs[0].field == "jsonrpc" && errs[0].tag == "eq")
      && (q.jsonrpc == Version && q.methodName == "" ==>
            |errs| == 1 && errs[0].field == "method" && errs[0].tag == "required")
  {
    var name := Field("method", Str(q.methodName), [Required, MinLen(1)]);
    FirstFailureOfTwo(Required, Eq(Version), Str(q.jsonrpc));
    FirstFailureOfTwo(Required, MinLen(1), Str(q.methodName));
    ValidateFieldsCons(VersionField(q.jsonrpc), [name]);
    ValidateFieldsCons(name, []);
    assert RequestFields(q) == [VersionField(q.jsonrpc)] + [name];
    assert [name] == [name] + [];
  }

  /** A present but wrong version tag is reported with the exact `eq`
      message, quoting the expected and the received version. */
  lemma WrongVersionError(q: Request)
    requires q.jsonrpc != "" && q.jsonrpc != Version
    ensures ValidateRequest(Some(q))
         == [ValidationError("jsonrpc", "eq", Str(q.jsonrpc), "2.0",
                             "field 'jsonrpc'" + " must equal '2.0', got '" + q.jsonrpc + "'")]
  {
    var name := Field("method", Str(q.methodName), [Required, MinLen(1)]);
    FirstFailureOfTwo(Required, Eq(Version), Str(q.jsonrpc));
    ValidateFieldsCons(VersionField(q.jsonrpc), [name]);
    assert RequestFields(q) == [VersionField(q.jsonrpc)] + [name];
    VersionMismatchMessage(q.jsonrpc);
  }

  /** The `eq` message for the version tag. */
  lemma VersionMismatchMessage(got: string)
    ensures BuildMessage("jsonrpc", Eq(Version), Str(got))
         == "field 'jsonrpc'" + " must equal '2.0', got '" + got + "'"
  {
    var e := Expectation(Eq(Version));
    VersionExpectationText();
    JsonrpcFieldText();
    assert BuildMessage("jsonrpc", Eq(Version), Str(got)) == ("field '" + "jsonrpc" + "'") + (e + got + "'");
  }

  lemma JsonrpcFieldText()
    ensures "field '" + "jsonrpc" + "'" == "field 'jsonrpc'"
  {
    var a := "field '" + "jsonrpc" + "'";
    forall i | 0 <= i < |a| ensures a[i] == "field 'jsonrpc'"[i] {
      if 7 <= i < 14 {
        assert a[i] == "jsonrpc"[i - 7];
      }
    }
  }

  /** What `eq=2.0` expects. */
  lemma VersionExpectationText()
    ensures Expectation(Eq(Version)) == " must equal '2.0', got '"
  {
    var a := Expectation(Eq(Version));
    var b := " must equal '2.0', got '";
    assert a == " must equal '" + "2.0" + "', got '";
    forall i | 0 <= i < |a| ensures a[i] == b[i] {
      if i < 13 {
        assert a[i] == " must equal '"[i];
      } else if i < 16 {
        assert a[i] == "2.0"[i - 13];
      } else {
        assert a[i] == "', got '"[i - 16];
      }
    }
  }

  /** The `eq` and custom-rule messages end with the offending value in
      quotes. */
  lemma DemandEndsWithValue(rule: Rule, v: FieldValue)
    requires rule.Eq? || rule.Custom?
    ensures var d := Demand(rule, v);
            |d| > |Show(v)| && d[|d| - |Show(v)| - 1..] == Show(v) + "'"
  {
    var head := Expectation(rule);
    var tail := Show(v) + "'";
    assert Demand(rule, v) == head + tail;
    assert (head + tail)[|head|..] == tail;
  }

  /** An error object fails on a zero code first, then on an empty
      message. */
  lemma ErrorObjectErrors(e: Error)
    ensures var errs := ValidateFields(ErrorFields(e));
      && (errs == [] <==> e.code != 0 && e.message != "")
      && (e.code == 0 ==> |errs| == 1 && errs[0].field == "code" && errs[0].tag == "required")
  {
    var code := Field("code", Int(e.code), [Required]);
    var message := Field("message", Str(e.message), [Required, MinLen(1)]);
    assert [Required][1..] == [];
    FirstFailureOfTwo(Required, MinLen(1), Str(e.message));
    ValidateFieldsCons(code, [message]);
    ValidateFieldsCons(message, []);
    assert ErrorFields(e) == [code] + [message];
    assert [message] == [message] + [];
  }

  /** `ValidateError`; `None` is a nil error object. */
  function ValidateError(e: Option<Error>): (errs: seq<ValidationError>)
    ensures e.None? ==> errs == [NilError("error")]
    ensures e.Some? ==> (errs == [] <==> e.value.code != 0 && e.value.message != "")
    ensures e.Some? && e.value.code == 0 ==>
              |errs| == 1 && errs[0].field == "code" && errs[0].tag == "required"
  {
    if e.None? then [NilError("error")]
    else ErrorObjectErrors(e.value); Validate(ErrorFields(e.value))
  }

  /** `ValidateResponse`; `None` is a nil response. A present error object
      is validated as part of the response. */
  function ValidateResponse(r: Option<Response>): (errs: seq<ValidationError>)
    ensures r.None? ==> errs == [NilError("response")]
    ensures r.Some? ==>
              (errs == [] <==> r.value.jsonrpc == Version
                               && (r.value.error.Some? ==> r.value.error.value.code != 0 && r.value.error.value.message != ""))
    ensures r.Some? ==> |errs| <= 1
    ensures r.Some? && r.value.jsonrpc != Version ==> errs[0].field == "jsonrpc"
    ensures r.Some? && r.value.jsonrpc == Version && r.value.error.Some? && r.value.error.value.code == 0 ==>
              errs[0].field == "code"
  {
    if r.None? then [NilError("response")]
    else
      var q := r.value;
      var tail := if q.error.Some? then ErrorFields(q.error.value) else [];
      FirstFailureOfTwo(Required, Eq(Version), Str(q.jsonrpc));
      ValidateFieldsCons(VersionField(q.jsonrpc), tail);
      if q.error.Some? then ErrorObjectErrors(q.error.value); Validate(ResponseFields(q))
      else assert tail == []; Validate(ResponseFields(q))
  }

  /** Every response the library's constructors build from a valid error
      object passes validation. */
  lemma ConstructedResponsesValidate(result: Json.Json, e: Error, id: Json.Json)
    requires e.code != 0 && e.message != ""
    ensures ValidateResponse(Some(NewResponse(result, id))) == []
    ensures ValidateResponse(Some(NewErrorResponse(e, id))) == []
  {
  }

  /** `ValidateSessionCode`: `required`, then the session-code rule. */
  function ValidateSessionCode(code: string): (errs: seq<ValidationError>)
    ensures errs == [] <==> IsValidFormat(code)
    ensures code == "" ==> errs == [ValidationError("value", "required", Str(""), "", "field '' is required")]
    ensures code != "" && !IsValidFormat(code) ==> |errs| == 1 && errs[0].tag == "sessioncode"
  {
    SessionCodeVerdict(code);
    MissingSessionCode();
    ValidateVar(Str(code), [Required, SessionCode])
  }

  /** The two session-code rules accept exactly the well-formed codes, and
      a non-empty malformed code fails on the session-code rule. */
  lemma SessionCodeVerdict(code: string)
    ensures var errs := ValidateVar(Str(code), [Required, SessionCode]);
      && (errs == [] <==> IsValidFormat(code))
      && (code != "" && !IsValidFormat(code) ==> |errs| == 1 && errs[0].tag == "sessioncode")
  {
    SessionCodeRulesAgree(code);
    FirstFailureOfTwo(Required, SessionCode, Str(code));
  }

  /** An empty session code fails on `required`, with its message. */
  lemma MissingSessionCode()
    ensures ValidateVar(Str(""), [Required, SessionCode])
         == [ValidationError("value", "required", Str(""), "", "field '' is required")]
  {
    FirstFailureOfTwo(Required, SessionCode, Str(""));
    RequiredMessageOfUnnamed();
  }

  /** The message for a missing value of an unnamed field. */
  lemma RequiredMessageOfUnnamed()
    ensures BuildMessage("", Required, Str("")) == "field '' is required"
  {
    var m := BuildMessage("", Required, Str(""));
    assert m == "field ''" + " is required";
    assert |m| == |"field '' is required"|;
    forall i | 0 <= i < |m| ensures m[i] == "field '' is required"[i] { }
  }

  /** `ValidationErrors.Error`. */
  function ErrorsText(errs: seq<ValidationError>): (r: string)
    ensures |errs| == 0 ==> r == "validation errors"
    ensures |errs| == 1 ==> r == "validation failed: " + errs[0].message
    ensures |errs| > 0 ==> |r| >= 19 && r[..19] == "validation failed: "
  {
    if |errs| == 0 then "validation errors"
    else "validation failed: " + JoinText(Messages(errs), "; ")
  }

  /** Every further error adds "; " and its message to the text. */
  lemma ErrorsTextSnoc(errs: seq<ValidationError>, e: ValidationError)
    requires |errs| > 0
    ensures ErrorsText(errs + [e]) == ErrorsText(errs) + "; " + e.message
  {
    assert Messages(errs + [e]) == Messages(errs) + [e.message];
    JoinTextSnoc(Messages(errs), e.message, "; ");
  }

  function Messages(errs: seq<ValidationError>): (ms: seq<string>)
    ensures |ms| == |errs|
    ensures forall i :: 0 <= i < |errs| ==> ms[i] == errs[i].message
  {
    seq(|errs|, i requires 0 <= i < |errs| => errs[i].message)
  }
}

=== FILE: server_config.dfy ===
/** Server configuration (server/internal/config/config.go): the
    defaults, the ordered first-failure validation, the environment and
    log-level readings and the listen address. */
module ServerConfig {
  import opened Wrappers
  import opened Text

  datatype Config = Config(
    port: int,
    host: string,
    corsOrigin: string,
    logLevel: string,
    environment: string,
    wsReadBufferSize: int,
    wsWriteBufferSize: int,
    maxConnections: int,
    heartbeatInterval: int,   // seconds
    sessionTimeout: int)      // seconds

  const DefaultPort: int := 8080
  const DefaultHost: string := "0.0.0.0"
  const DefaultCorsOrigin: string := "http://localhost:3000"
  const DefaultLogLevel: string := "info"
  const DefaultEnvironment: string := "development"
  const DefaultWsReadBufferSize: int := 1024
  const DefaultWsWriteBufferSize: int := 1024
  const DefaultMaxConnections: int := 1000
  const DefaultHeartbeatInterval: int := 30
  const DefaultSessionTimeout: int := 3600

  function DefaultConfig(): (c: Config)
    ensures c.port == 8080 && c.host == "0.0.0.0" && c.corsOrigin == "http://localhost:3000"
    ensures c.logLevel == "info" && c.environment == "development"
    ensures c.wsReadBufferSize == 1024 && c.wsWriteBufferSize == 1024
    ensures c.maxConnections == 1000 && c.heartbeatInterval == 30 && c.sessionTimeout == 3600
  {
    Config(DefaultPort, DefaultHost, DefaultCorsOrigin, DefaultLogLevel, DefaultEnvironment,
           DefaultWsReadBufferSize, DefaultWsWriteBufferSize, DefaultMaxConnections,
           DefaultHeartbeatInterval, DefaultSessionTimeout)
  }

  /** Go's `%q` for a plain string; escaping of quotes and control
      characters is not modelled. */
  function Quote(s: string): string {
    "\"" + s + "\""
  }

  const LogLevels: set<string> := {"debug", "info", "warn", "error"}
  const Environments: set<string> := {"development", "production", "test"}

  function ValidateBasicFields(c: Config): (r: Outcome<string>)
    ensures r.Pass? <==> 1 <= c.port <= 65535 && c.host != ""
    ensures !(1 <= c.port <= 65535) ==> r == Fail("port must be between 1 and 65535, got " + IntToDec(c.port))
  {
    if c.port <= 0 || c.port > 65535 then Fail("port must be between 1 and 65535, got " + IntToDec(c.port))
    else if c.host == "" then Fail("host cannot be empty")
    else Pass
  }

  function ValidateLogLevel(c: Config): (r: Outcome<string>)
    ensures r.Pass? <==> ToLower(c.logLevel) in LogLevels
    ensures c.logLevel == "" ==> r == Fail("log level cannot be empty")
  {
    if c.logLevel == "" then Fail("log level cannot be empty")
    else if ToLower(c.logLevel) !in LogLevels then
      Fail("invalid log level " + Quote(c.logLevel) + ", must be one of: debug, info, warn, error")
    else Pass
  }

  function ValidateEnvironment(c: Config): (r: Outcome<string>)
    ensures r.Pass? <==> ToLower(c.environment) in Environments
    ensures c.environment == "" ==> r == Fail("environment cannot be empty")
  {
    if c.environment == "" then Fail("environment cannot be empty")
    else if ToLower(c.environment) !in Environments then
      Fail("invalid environment " + Quote(c.environment) + ", must be one of: development, production, test")
    else Pass
  }

  function ValidateWebSocketSettings(c: Config): (r: Outcome<string>)
    ensures r.Pass? <==> c.wsReadBufferSize > 0 && c.wsWriteBufferSize > 0
  {
    if c.wsReadBufferSize <= 0 then
      Fail("WebSocket read buffer size must be positive, got " + IntToDec(c.wsReadBufferSize))
    else if c.wsWriteBufferSize <= 0 then
      Fail("WebSocket write buffer size must be positive, got " + IntToDec(c.wsWriteBufferSize))
    else Pass
  }

  function ValidateConnectionSettings(c: Config): (r: Outcome<string>)
    ensures r.Pass? <==> c.maxConnections > 0 && c.heartbeatInterval > 0 && c.sessionTimeout > 0
  {
    if c.maxConnections <= 0 then
      Fail("max connections must be positive, got " + IntToDec(c.maxConnections))
    else if c.heartbeatInterval <= 0 then
      Fail("heartbeat interval must be positive, got " + IntToDec(c.heartbeatInterval))
    else if c.sessionTimeout <= 0 then
      Fail("session timeout must be positive, got " + IntToDec(c.sessionTimeout))
    else Pass
  }

  /** The conditions a usable configuration meets, stated field by field. */
  predicate WellFormed(c: Config) {
    0 < c.port <= 65535 && |c.host| > 0 &&
    ToLower(c.logLevel) in LogLevels &&
    ToLower(c.environment) in Environments &&
    c.wsReadBufferSize > 0 && c.wsWriteBufferSize > 0 &&
    c.maxConnections > 0 && c.heartbeatInterval > 0 && c.sessionTimeout > 0
  }

  /** `Validate`: the groups are checked in a fixed order and the first
      failure is reported. */
  function Validate(c: Config): (r: Outcome<string>)
    ensures r.Pass? <==> WellFormed(c)
  {
    if ValidateBasicFields(c).Fail? then ValidateBasicFields(c)
    else if ValidateLogLevel(c).Fail? then ValidateLogLevel(c)
    else if ValidateEnvironment(c).Fail? then ValidateEnvironment(c)
    else if ValidateWebSocketSettings(c).Fail? then ValidateWebSocketSettings(c)
    else ValidateConnectionSettings(c)
  }

  /** Every failure `Validate` reports comes from a group whose
      predecessors all pass. */
  lemma ValidateReportsFirstFailingGroup(c: Config)
    ensures Validate(c).Fail? ==>
              (Validate(c) == ValidateBasicFields(c)) ||
              (ValidateBasicFields(c).Pass? && Validate(c) == ValidateLogLevel(c)) ||
              (ValidateBasicFields(c).Pass? && ValidateLogLevel(c).Pass? &&
               Validate(c) == ValidateEnvironment(c)) ||
              (ValidateBasicFields(c).Pass? && ValidateLogLevel(c).Pass? && ValidateEnvironment(c).Pass? &&
               Validate(c) == ValidateWebSocketSettings(c)) ||
              (ValidateBasicFields(c).Pass? && ValidateLogLevel(c).Pass? && ValidateEnvironment(c).Pass? &&
               ValidateWebSocketSettings(c).Pass? && Validate(c) == ValidateConnectionSettings(c))
    ensures !(1 <= c.port <= 65535) ==> Validate(c) == Fail("port must be between 1 and 65535, got " + IntToDec(c.port))
  {
  }

  lemma DefaultConfigIsValid()
    ensures Validate(DefaultConfig()) == Pass
  {
    var c := DefaultConfig();
    assert ToLower("info") == "info" by { ToLowerFixed("info"); }
    assert ToLower("development") == "development" by { ToLowerFixed("development"); }
  }

  function IsDevelopment(c: Config): (b: bool) { ToLower(c.environment) == "development" }
  function IsProduction(c: Config): (b: bool) { ToLower(c.environment) == "production" }
  function IsTest(c: Config): (b: bool) { ToLower(c.environment) == "test" }

  /** The environment readings exclude each other, and a valid
      configuration has exactly one. */
  lemma EnvironmentReadings(c: Config)
    ensures !(IsDevelopment(c) && IsProduction(c)) && !(IsDevelopment(c) && IsTest(c)) &&
            !(IsProduction(c) && IsTest(c))
    ensures Validate(c).Pass? ==> IsDevelopment(c) || IsProduction(c) || IsTest(c)
  {
  }

  /** The readings ignore ASCII case. */
  lemma EnvironmentIgnoresCase(c: Config, d: Config)
    requires ToLower(c.environment) == ToLower(d.environment)
    ensures IsDevelopment(c) == IsDevelopment(d) && IsProduction(c) == IsProduction(d) && IsTest(c) == IsTest(d)
  {
  }

  // slog levels.
  const LevelDebug: int := -4
  const LevelInfo: int := 0
  const LevelWarn: int := 4
  const LevelError: int := 8

  function LogLevelSlog(c: Config): (level: int)
    ensures ToLower(c.logLevel) == "debug" <==> level == LevelDebug
    ensures ToLower(c.logLevel) == "warn" <==> level == LevelWarn
    ensures ToLower(c.logLevel) == "error" <==> level == LevelError
    ensures ToLower(c.logLevel) !in {"debug", "warn", "error"} <==> level == LevelInfo
  {
    match ToLower(c.logLevel)
    case "debug" => LevelDebug
    case "info" => LevelInfo
    case "warn" => LevelWarn
    case "error" => LevelError
    case _ => LevelInfo
  }

  /** The level depends only on the lower-cased setting. */
  lemma LogLevelIgnoresCase(c: Config)
    ensures LogLevelSlog(c) == LogLevelSlog(c.(logLevel := ToLower(c.logLevel)))
  {
    ToLowerIdempotent(c.logLevel);
  }

  /** `Address`: "host:port", from which the host and the port can be
      read back. */
  function Address(c: Config): (a: string)
    ensures |a| > |c.host| && a[..|c.host|] == c.host && a[|c.host|] == ':'
    ensures ScanInt(a[|c.host| + 1..]) == Some(c.port)
  {
    AddressReadsBack(c.host, c.port);
    c.host + ":" + IntToDec(c.port)
  }

  lemma AddressReadsBack(host: string, port: int)
    ensures var a := host + ":" + IntToDec(port);
            |a| > |host| && a[..|host|] == host && a[|host|] == ':' && ScanInt(a[|host| + 1..]) == Some(port)
  {
    var a := host + ":" + IntToDec(port);
    assert a[|host| + 1..] == IntToDec(port) + "";
    ScanIntOfIntToDec(port, "");
  }

  lemma DefaultAddress()
    ensures Address(DefaultConfig()) == "0.0.0.0:8080"
  {
    DecimalOfDefaultPort();
    var c := DefaultConfig();
    assert Address(c) == "0.0.0.0" + ":" + "8080";
    DefaultAddressLiteral();
  }

  lemma DecimalOfDefaultPort()
    ensures IntToDec(8080) == "8080"
  {
    assert NatToDec(8) == "8";
    assert NatToDec(80) == "80";
    assert NatToDec(808) == "808";
  }

  lemma DefaultAddressLiteral()
    ensures "0.0.0.0" + ":" + "8080" == "0.0.0.0:8080"
  {
    var a := "0.0.0.0" + ":" + "8080";
    assert |a| == 12;
    assert forall i :: 0 <= i < 12 ==> a[i] == "0.0.0.0:8080"[i];
  }
}

=== FILE: session_generator.dfy ===
/** Session codes: the `adjective-noun-number` format, its validation and
    normalisation, and code generation from an external word oracle
    (server/internal/session/generator.go). */
module SessionGenerator {
  import opened Wrappers
  import opened Text

  const Separator: char := '-'
  const MinSuffix: int := 1
  const MaxSuffix: int := 99

  /** `NormalizeCode`: the lower-cased trim of a code, the form under which
      sessions are stored and looked up. */
  function NormalizeCode(code: string): (r: string)
    ensures |r| <= |code|
    ensures forall i :: 0 <= i < |r| ==> !IsUpper(r[i])
    ensures |r| > 0 ==> !IsSpace(r[0]) && !IsSpace(r[|r| - 1])
    ensures r == "" <==> AllSpace(code)
  {
    ToLower(TrimSpace(code))
  }

  /** The numeric suffix: one or two bytes long, and the integer `%d` scans
      from its start lies in [1, 99]. */
  predicate ValidSuffix(last: string) {
    && 0 < ByteLen(last) <= 2
    && var n := ScanInt(last);
       n.Some? && MinSuffix <= n.value <= MaxSuffix
  }

  /** The structural rule applied to the dash-separated parts of a
      normalised code. */
  predicate WellFormedParts(parts: seq<string>) {
    && |parts| == 3
    && (forall i :: 0 <= i < 3 ==> TrimSpace(parts[i]) != "")
    && ValidSuffix(parts[2])
  }

  /** `IsValidFormat`. */
  predicate IsValidFormat(code: string) {
    code != "" && WellFormedParts(Split(NormalizeCode(code), Separator))
  }

  /** Normalising twice is normalising once. */
  lemma NormalizeIdempotent(code: string)
    ensures NormalizeCode(NormalizeCode(code)) == NormalizeCode(code)
  {
    var t := TrimSpace(code);
    TrimLowerCommute(t);
    TrimSpaceFixed(t);
    ToLowerIdempotent(t);
  }

  /** Codes that differ only in ASCII letter case normalise identically and
      are valid or invalid together. */
  lemma CaseInsensitive(a: string, b: string)
    requires ToLower(a) == ToLower(b)
    ensures NormalizeCode(a) == NormalizeCode(b)
    ensures IsValidFormat(a) == IsValidFormat(b)
  {
    TrimLowerCommute(a);
    TrimLowerCommute(b);
  }

  /** Validity depends only on the normalised form. */
  lemma ValidityIsNormalizationInvariant(code: string)
    ensures IsValidFormat(NormalizeCode(code)) == IsValidFormat(code)
  {
    NormalizeIdempotent(code);
    if code != "" && NormalizeCode(code) == "" {
      assert Split(NormalizeCode(code), Separator) == [[]];
    }
  }

  /** The suffix rule accepts a leading zero and trailing junk after a
      digit, as `%d` scanning does. */
  lemma SuffixAccepted()
    ensures ValidSuffix("01") && ValidSuffix("4a") && ValidSuffix("99")
  {
    LeadingZeroSuffix();
    TrailingJunkSuffix();
    LargestSuffix();
  }

  lemma LeadingZeroSuffix()
    ensures ValidSuffix("01")
  {
    var d := "01";
    assert AllDigits(d);
    assert DecValue(d[..1]) == 0;
    assert DecValue(d) == 1;
    assert ByteLen(d) == 2;
    SuffixOfNumeral(d, "");
    assert d + "" == d;
  }

  lemma TrailingJunkSuffix()
    ensures ValidSuffix("4a")
  {
    var d := "4";
    assert AllDigits(d);
    assert DecValue(d) == 4;
    assert d + "a" == "4a";
    assert ByteLen("4a") == 2;
    SuffixOfNumeral(d, "a");
  }

  lemma LargestSuffix()
    ensures ValidSuffix("99")
  {
    var d := "99";
    assert AllDigits(d);
    assert DecValue(d[..1]) == 9;
    assert DecValue(d) == 99;
    assert ByteLen(d) == 2;
    SuffixOfNumeral(d, "");
    assert d + "" == d;
  }

  lemma SuffixOfNumeral(d: string, rest: string)
    requires |d| > 0 && AllDigits(d) && (rest == [] || !IsDigit(rest[0]))
    requires ByteLen(d + rest) <= 2 && 1 <= DecValue(d) <= 99
    ensures ValidSuffix(d + rest)
  {
    ScanIntOfNumeral(d, rest);
  }

  /** The suffix rule rejects zero, three-byte numbers, non-numbers and a
      decimal fraction. */
  lemma SuffixRejected()
    ensures !ValidSuffix("0") && !ValidSuffix("100") && !ValidSuffix("abc") && !ValidSuffix("42.5")
  {
    assert LeadingDigits("0") == "0";
    assert DecValue("0") == 0;
    assert ByteLen("100") == 3;
    assert ByteLen("abc") == 3;
    assert ByteLen("42.5") == 4;
  }

  // ---------------------------------------------------------------------
  // Generation
  // ---------------------------------------------------------------------

  /** The external word oracle (`petname.Generate(2, "-")`) yields two
      words; the hyphen between them is added here. */
  datatype PetName = PetName(adjective: string, noun: string)

  /** A word the oracle may yield: non-empty, with no dash and no white
      space. */
  predicate IsWord(w: string) {
    |w| > 0 && forall i :: 0 <= i < |w| ==> w[i] != Separator && !IsSpace(w[i])
  }

  /** `GenerateCode`: `draw` is the value of `rng.Intn(99)`, so the suffix
      is `draw + 1`, in [1, 99]. The generated code splits into the two words
      and the printed suffix, and passes `IsValidFormat`. */
  function GenerateCode(pet: PetName, draw: int): (code: string)
    requires IsWord(pet.adjective) && IsWord(pet.noun)
    requires 0 <= draw < 99
    ensures Split(code, Separator) == [pet.adjective, pet.noun, NatToDec(draw + 1)]
    ensures ScanInt(NatToDec(draw + 1)) == Some(draw + 1)
    ensures IsValidFormat(code)
  {
    var suffix := NatToDec(draw + 1);
    var code := pet.adjective + "-" + pet.noun + "-" + suffix;
    GeneratedCodeIsValid(pet.adjective, pet.noun, suffix, draw + 1);
    code
  }

  lemma LowerWord(w: string)
    requires IsWord(w)
    ensures IsWord(ToLower(w))
  {
  }

  lemma JoinThree(a: string, b: string, c: string)
    ensures Join([a, b, c], Separator) == a + "-" + b + "-" + c
  {
    assert [a, b, c][1..] == [b, c];
    assert [b, c][1..] == [c];
    assert Join([b, c], Separator) == b + "-" + c;
    assert Join([a, b, c], Separator) == a + "-" + (b + "-" + c);
  }

  /** Normalising a generated code only lower-cases its two words. */
  lemma NormalizeGenerated(adj: string, noun: string, suffix: string)
    requires IsWord(adj) && IsWord(noun)
    requires |suffix| > 0 && AllDigits(suffix)
    ensures NormalizeCode(adj + "-" + noun + "-" + suffix) == ToLower(adj) + "-" + ToLower(noun) + "-" + suffix
  {
    var code := adj + "-" + noun + "-" + suffix;
    assert code[0] == adj[0];
    assert code[|code| - 1] == suffix[|suffix| - 1];
    TrimSpaceFixed(code);
    ToLowerConcat(adj + "-" + noun + "-", suffix);
    ToLowerConcat(adj + "-" + noun, "-");
    ToLowerConcat(adj + "-", noun);
    ToLowerConcat(adj, "-");
    ToLowerFixed(suffix);
  }

  /** A printed number in [1, 99] is a valid suffix. */
  lemma PrintedSuffixIsValid(n: nat)
    requires 1 <= n <= 99
    ensures ScanInt(NatToDec(n)) == Some(n)
    ensures ValidSuffix(NatToDec(n))
  {
    var d := NatToDec(n);
    ScanIntOfNatToDec(n, []);
    assert d + [] == d;
    assert forall i :: 0 <= i < |d| ==> d[i] < '\U{0080}' by {
      forall i | 0 <= i < |d| ensures d[i] < '\U{0080}' {
        assert IsDigit(d[i]);
      }
    }
    assert ByteLen(d) == |d|;
  }

  lemma WordIsNotBlank(w: string)
    requires |w| > 0 && !IsSpace(w[0])
    ensures TrimSpace(w) != ""
  {
  }

  lemma WellFormedGenerated(la: string, ln: string, suffix: string, n: nat)
    requires IsWord(la) && IsWord(ln)
    requires 1 <= n <= 99 && suffix == NatToDec(n)
    ensures ScanInt(suffix) == Some(n)
    ensures WellFormedParts([la, ln, suffix])
  {
    PrintedSuffixIsValid(n);
    WordIsNotBlank(la);
    WordIsNotBlank(ln);
    assert IsDigit(suffix[0]);
    WordIsNotBlank(suffix);
    var parts := [la, ln, suffix];
    assert parts[0] == la && parts[1] == ln && parts[2] == suffix;
  }

  lemma GeneratedCodeIsValid(adj: string, noun: string, suffix: string, n: nat)
    requires IsWord(adj) && IsWord(noun)
    requires 1 <= n <= 99 && suffix == NatToDec(n)
    ensures Split(adj + "-" + noun + "-" + suffix, Separator) == [adj, noun, suffix]
    ensures ScanInt(suffix) == Some(n)
    ensures IsValidFormat(adj + "-" + noun + "-" + suffix)
  {
    JoinThree(adj, noun, suffix);
    SplitJoin([adj, noun, suffix], Separator);
    NormalizeGenerated(adj, noun, suffix);
    var la, ln := ToLower(adj), ToLower(noun);
    LowerWord(adj);
    LowerWord(noun);
    JoinThree(la, ln, suffix);
    SplitJoin([la, ln, suffix], Separator);
    WellFormedGenerated(la, ln, suffix, n);
  }
}

=== FILE: session_manager.dfy ===
/** The in-memory session store: creation with collision retry, lookup with
    lazy expiry, deletion, data update and the expiry sweep
    (server/internal/session/manager.go). Every operation is one atomic step
    from a `Manager` value to the next; the clock is the explicit `now`. */
module SessionManager {
  import opened Wrappers
  import opened Json
  import opened Text
  import opened Collections
  import opened SessionGenerator
  import opened SessionTypes

  /** The store, keyed by normalised session code, and the manager's own
      options (the only ones expiry ever consults). */
  datatype Manager = Manager(sessions: map<string, Session>, options: SessionOptions)

  /** The new state of the manager together with what the call returns. */
  datatype Reply<T> = Reply(next: Manager, value: T)

  /** `NewManager`: an empty store; nil options mean the defaults. */
  function NewManager(options: Option<SessionOptions>): (m: Manager)
    ensures m.sessions == map[]
    ensures options.Some? ==> m.options == options.value
    ensures options.None? ==> m.options.maxRetries == 10 && m.options.sessionTimeout == 24 * Hour
  {
    Manager(map[], if options.Some? then options.value else DefaultSessionOptions())
  }

  /** `isExpired`: strictly more than the manager's timeout has passed since
      the last access. */
  predicate IsExpired(m: Manager, s: Session, now: int) {
    now - s.lastAccessed > m.options.sessionTimeout
  }

  /** The store invariant every operation keeps when candidate codes come
      from the generator: each key is a valid, normalised code and names the
      session stored under it. */
  ghost predicate WellKeyed(m: Manager) {
    forall k :: k in m.sessions ==>
      m.sessions[k].code == k && IsValidFormat(k) && NormalizeCode(k) == k
  }

  // ---------------------------------------------------------------------
  // CreateSession
  // ---------------------------------------------------------------------

  /** One generation attempt: the code the generator produced, and whether
      the caller's context was already cancelled when the loop looked. */
  datatype Attempt = Attempt(candidate: string, cancelled: bool)

  datatype CreateError = CodeGenerationFailed | CreationCancelled

  /** The error text `CreateSession` returns; `contextError` is the text of
      the cancelled context's error. */
  function CreateErrorText(e: CreateError, contextError: string): (r: string)
    ensures e.CodeGenerationFailed? ==> r == ErrorText(ErrCodeGenerationFailed)
    ensures e.CreationCancelled? ==>
              |r| == 28 + |contextError| && r[..28] == "session creation cancelled: " && r[28..] == contextError
  {
    match e
    case CodeGenerationFailed => ErrorText(ErrCodeGenerationFailed)
    case CreationCancelled => "session creation cancelled: " + contextError
  }

  /** How the retry loop ended: with a code to store, with every attempt
      colliding, or on a cancelled context. */
  datatype Search = Found(code: string) | Collided | Aborted

  /** Some attempt in `[lo, hi]` produced a candidate `valid` accepts. */
  ghost predicate SomeValid(valid: string -> bool, attempts: seq<Attempt>, lo: int, hi: int) {
    exists j :: 0 <= lo <= j <= hi && j < |attempts| && valid(attempts[j].candidate)
  }

  /** The retry loop from attempt `i` to attempt `last`, carrying the loop
      variables `code` and `collision` exactly as the source does: a
      candidate `valid` rejects is skipped without resetting `collision`,
      a candidate whose `key` is free is taken, and the context is consulted
      only after a collision. `CreateSession` instantiates `valid` and `key`
      with `IsValidFormat` and `NormalizeCode`. */
  function SearchCode(valid: string -> bool, key: string -> string, store: map<string, Session>,
                      attempts: seq<Attempt>, i: nat, last: int, code: string, collision: bool): Search
    requires last < |attempts| && i <= |attempts|
    decreases |attempts| - i
  {
    if i > last then
      if collision then Collided else Found(code)
    else
      var c := attempts[i].candidate;
      if !valid(c) then
        SearchCode(valid, key, store, attempts, i + 1, last, c, collision)
      else if key(c) !in store then
        Found(key(c))
      else if attempts[i].cancelled then Aborted
      else SearchCode(valid, key, store, attempts, i + 1, last, c, true)
  }

  /** What the retry loop guarantees: a code found after some valid
      candidate is a free key of one; with no valid candidate the loop ends
      on its carried variables; it aborts only on a cancelled collision, and
      reports exhaustion only when every valid candidate collided on a live
      context. */
  lemma {:induction false} SearchCodeSpec(valid: string -> bool, key: string -> string, store: map<string, Session>,
                                          attempts: seq<Attempt>, i: nat, last: int, code: string, collision: bool)
    requires last < |attempts| && i <= |attempts|
    ensures var r := SearchCode(valid, key, store, attempts, i, last, code, collision);
      && (r.Found? && SomeValid(valid, attempts, i, last) ==>
            r.code !in store
            && exists j :: i <= j <= last && valid(attempts[j].candidate) && r.code == key(attempts[j].candidate))
      && (!SomeValid(valid, attempts, i, last) ==>
            r == (if collision then Collided else Found(if i <= last then attempts[last].candidate else code)))
      && (r.Aborted? ==>
            exists j :: i <= j <= last && valid(attempts[j].candidate)
              && key(attempts[j].candidate) in store && attempts[j].cancelled)
      && (r.Collided? ==>
            forall j :: i <= j <= last && valid(attempts[j].candidate) ==>
              key(attempts[j].candidate) in store && !attempts[j].cancelled)
    decreases |attempts| - i
  {
    if i <= last {
      var c := attempts[i].candidate;
      if !valid(c) {
        SearchCodeSpec(valid, key, store, attempts, i + 1, last, c, collision);
      } else if key(c) in store && !attempts[i].cancelled {
        SearchCodeSpec(valid, key, store, attempts, i + 1, last, c, true);
      }
    }
  }

  /** The code found is the key of the FIRST valid candidate whose key is
      free: every valid candidate before it collided on a live context. */
  lemma {:induction false} SearchCodeTakesFirstFree(valid: string -> bool, key: string -> string,
                                                    store: map<string, Session>, attempts: seq<Attempt>,
                                                    i: nat, last: int, code: string, collision: bool)
    requires last < |attempts| && i <= |attempts|
    requires SearchCode(valid, key, store, attempts, i, last, code, collision).Found?
    requires SomeValid(valid, attempts, i, last)
    ensures exists j :: i <= j <= last && valid(attempts[j].candidate) && key(attempts[j].candidate) !in store
              && SearchCode(valid, key, store, attempts, i, last, code, collision).code == key(attempts[j].candidate)
              && forall k :: i <= k < j && valid(attempts[k].candidate) ==>
                   key(attempts[k].candidate) in store && !attempts[k].cancelled
    decreases |attempts| - i
  {
    var r := SearchCode(valid, key, store, attempts, i, last, code, collision);
    var c := attempts[i].candidate;
    var j0 :| i <= j0 <= last && j0 < |attempts| && valid(attempts[j0].candidate);
    if valid(c) && key(c) !in store {
      assert r == Found(key(c));
    } else {
      var next := if valid(c) then true else collision;
      if valid(c) {
        assert !attempts[i].cancelled;
        assert r == SearchCode(valid, key, store, attempts, i + 1, last, c, true);
        // with no valid candidate left, the collision would end the loop
        SearchCodeSpec(valid, key, store, attempts, i + 1, last, c, true);
      } else {
        assert r == SearchCode(valid, key, store, attempts, i + 1, last, c, collision);
        assert j0 != i;
      }
      assert SomeValid(valid, attempts, i + 1, last);
      SearchCodeTakesFirstFree(valid, key, store, attempts, i + 1, last, c, next);
      var j :| i + 1 <= j <= last && valid(attempts[j].candidate) && key(attempts[j].candidate) !in store
               && r.code == key(attempts[j].candidate)
               && forall k :: i + 1 <= k < j && valid(attempts[k].candidate) ==>
                    key(attempts[k].candidate) in store && !attempts[k].cancelled;
      assert forall k :: i <= k < j && valid(attempts[k].candidate) ==>
               key(attempts[k].candidate) in store && !attempts[k].cancelled;
    }
  }

  /** The options a call runs with: its own, or the manager's for nil. */
  function Effective(m: Manager, opts: Option<SessionOptions>): SessionOptions {
    if opts.Some? then opts.value else m.options
  }

  /** A fresh session's data: a copy of the initial data, empty for nil. */
  function InitialData(o: SessionOptions): map<string, Json> {
    if o.initialData.Some? then o.initialData.value else map[]
  }

  /** Normalising a well-formed code gives a well-formed code that is its
      own normal form. */
  lemma NormalizedCodesAreCanonical()
    ensures forall c :: IsValidFormat(c) ==> IsValidFormat(NormalizeCode(c)) && NormalizeCode(NormalizeCode(c)) == NormalizeCode(c)
  {
    forall c | IsValidFormat(c)
      ensures IsValidFormat(NormalizeCode(c)) && NormalizeCode(NormalizeCode(c)) == NormalizeCode(c)
    {
      NormalizeIdempotent(c);
      ValidityIsNormalizationInvariant(c);
    }
  }

  /** The retry loop of `CreateSession` over the manager's store. */
  function SearchFreshCode(m: Manager, attempts: seq<Attempt>, last: int): Search
    requires last < |attempts|
  {
    SearchCode(IsValidFormat, NormalizeCode, m.sessions, attempts, 0, last, "", false)
  }

  /** `SearchCodeSpec` for the generator's format check and normal form. */
  lemma SearchFreshCodeSpec(m: Manager, attempts: seq<Attempt>, last: int)
    requires last < |attempts|
    ensures var r := SearchFreshCode(m, attempts, last);
      && (r.Found? && SomeValid(IsValidFormat, attempts, 0, last) ==>
            r.code !in m.sessions && IsValidFormat(r.code) && NormalizeCode(r.code) == r.code)
      && (r.Collided? ==>
            forall j :: 0 <= j <= last && IsValidFormat(attempts[j].candidate) ==>
              NormalizeCode(attempts[j].candidate) in m.sessions)
      && (r.Aborted? ==>
            exists j :: 0 <= j <= last && attempts[j].cancelled
              && IsValidFormat(attempts[j].candidate) && NormalizeCode(attempts[j].candidate) in m.sessions)
  {
    var r := SearchFreshCode(m, attempts, last);
    SearchCodeSpec(IsValidFormat, NormalizeCode, m.sessions, attempts, 0, last, "", false);
    if r.Found? && SomeValid(IsValidFormat, attempts, 0, last) {
      var j :| 0 <= j <= last && IsValidFormat(attempts[j].candidate) && r.code == NormalizeCode(attempts[j].candidate);
      NormalizeIdempotent(attempts[j].candidate);
      ValidityIsNormalizationInvariant(attempts[j].candidate);
    }
  }

  /** `CreateSession`. `attempts[j]` is what attempt `j` sees; attempts
      `0 ..= MaxRetries` are made at most. */
  function CreateSession(m: Manager, opts: Option<SessionOptions>, attempts: seq<Attempt>, now: int)
    : (r: Reply<Result<Session, CreateError>>)
    requires Effective(m, opts).maxRetries < |attempts|
    ensures r.value.Failure? ==> r.next == m
    ensures r.value.Success? ==>
              var s := r.value.value;
              && s.createdAt == now && s.lastAccessed == now
              && s.data == InitialData(Effective(m, opts))
              && r.next == m.(sessions := m.sessions[s.code := s])
    ensures r.value.Success? && SomeValid(IsValidFormat, attempts, 0, Effective(m, opts).maxRetries) ==>
              var s := r.value.value;
              && s.code !in m.sessions
              && IsValidFormat(s.code) && NormalizeCode(s.code) == s.code
              && |r.next.sessions| == |m.sessions| + 1
    ensures r.value == Failure(CodeGenerationFailed) ==>
              forall j :: 0 <= j <= Effective(m, opts).maxRetries && IsValidFormat(attempts[j].candidate) ==>
                NormalizeCode(attempts[j].candidate) in m.sessions
    ensures r.value == Failure(CreationCancelled) ==>
              exists j :: 0 <= j <= Effective(m, opts).maxRetries && attempts[j].cancelled
                && IsValidFormat(attempts[j].candidate) && NormalizeCode(attempts[j].candidate) in m.sessions
  {
    var o := Effective(m, opts);
    SearchFreshCodeSpec(m, attempts, o.maxRetries);
    match SearchFreshCode(m, attempts, o.maxRetries)
    case Aborted => Reply(m, Failure(CreationCancelled))
    case Collided => Reply(m, Failure(CodeGenerationFailed))
    case Found(code) =>
      var s := Session(code, now, now, InitialData(o));
      Reply(m.(sessions := m.sessions[code := s]), Success(s))
  }

  /** The loop never looks past attempt `last`. */
  lemma {:induction false} SearchIgnoresLaterAttempts(valid: string -> bool, key: string -> string,
                                                      store: map<string, Session>, a: seq<Attempt>, b: seq<Attempt>,
                                                      i: nat, last: int, code: string, collision: bool)
    requires last < |a| && last < |b| && i <= |a| && i <= |b|
    requires forall j :: i <= j <= last ==> a[j] == b[j]
    ensures SearchCode(valid, key, store, a, i, last, code, collision)
         == SearchCode(valid, key, store, b, i, last, code, collision)
    decreases |a| - i
  {
    if i <= last {
      SearchIgnoresLaterAttempts(valid, key, store, a, b, i + 1, last, a[i].candidate, collision);
      SearchIgnoresLaterAttempts(valid, key, store, a, b, i + 1, last, a[i].candidate, true);
    }
  }

  /** At most `MaxRetries + 1` codes are generated: attempts beyond that bound
      never influence the outcome. */
  lemma CreateUsesAtMostMaxRetriesPlusOne(m: Manager, opts: Option<SessionOptions>, attempts: seq<Attempt>, now: int)
    requires 0 <= Effective(m, opts).maxRetries < |attempts|
    ensures CreateSession(m, opts, attempts, now)
         == CreateSession(m, opts, attempts[..Effective(m, opts).maxRetries + 1], now)
  {
    var n := Effective(m, opts).maxRetries;
    SearchIgnoresLaterAttempts(IsValidFormat, NormalizeCode, m.sessions, attempts, attempts[..n + 1], 0, n, "", false);
  }

  /** Cancellation is not consulted before the first collision: a fresh,
      well-formed first candidate succeeds even on a cancelled context. */
  lemma CancellationIgnoredWithoutCollision(m: Manager, opts: Option<SessionOptions>, attempts: seq<Attempt>, now: int)
    requires 0 <= Effective(m, opts).maxRetries < |attempts|
    requires IsValidFormat(attempts[0].candidate) && NormalizeCode(attempts[0].candidate) !in m.sessions
    ensures CreateSession(m, opts, attempts, now).value.Success?
    ensures CreateSession(m, opts, attempts, now).value.value.code == NormalizeCode(attempts[0].candidate)
  {
  }

  /** When every attempt collides and the context stays live, the search
      reports a collision. */
  lemma {:induction false} AllCollisionsExhaust(valid: string -> bool, key: string -> string,
                                                store: map<string, Session>, attempts: seq<Attempt>, i: nat, last: int,
                                                code: string, collision: bool)
    requires last < |attempts| && i <= |attempts|
    requires i > last ==> collision
    requires forall j :: i <= j <= last ==>
               valid(attempts[j].candidate) && key(attempts[j].candidate) in store && !attempts[j].cancelled
    ensures SearchCode(valid, key, store, attempts, i, last, code, collision) == Collided
    decreases |attempts| - i
  {
    if i <= last {
      AllCollisionsExhaust(valid, key, store, attempts, i + 1, last, attempts[i].candidate, true);
    }
  }

  /** Every code colliding on a live context: creation fails with
      `ErrCodeGenerationFailed` and the store is unchanged. */
  lemma CreateFailsWhenEveryCodeCollides(m: Manager, opts: Option<SessionOptions>, attempts: seq<Attempt>, now: int)
    requires 0 <= Effective(m, opts).maxRetries < |attempts|
    requires forall j :: 0 <= j <= Effective(m, opts).maxRetries ==>
               IsValidFormat(attempts[j].candidate) && NormalizeCode(attempts[j].candidate) in m.sessions
               && !attempts[j].cancelled
    ensures CreateSession(m, opts, attempts, now) == Reply(m, Failure(CodeGenerationFailed))
  {
    AllCollisionsExhaust(IsValidFormat, NormalizeCode, m.sessions, attempts, 0, Effective(m, opts).maxRetries, "", false);
  }

  /** With a negative `MaxRetries` no attempt is made, `collision` stays
      false and the session is stored under the empty code. */
  lemma NegativeMaxRetriesStoresEmptyCode(m: Manager, opts: Option<SessionOptions>, attempts: seq<Attempt>, now: int)
    requires Effective(m, opts).maxRetries < 0
    ensures CreateSession(m, opts, attempts, now).value.Success?
    ensures CreateSession(m, opts, attempts, now).value.value.code == ""
  {
  }

  /** Creation keeps the store well keyed when the generator's first
      candidate is well formed. */
  lemma CreatePreservesWellKeyed(m: Manager, opts: Option<SessionOptions>, attempts: seq<Attempt>, now: int)
    requires 0 <= Effective(m, opts).maxRetries < |attempts|
    requires IsValidFormat(attempts[0].candidate)
    requires WellKeyed(m)
    ensures WellKeyed(CreateSession(m, opts, attempts, now).next)
  {
    assert SomeValid(IsValidFormat, attempts, 0, Effective(m, opts).maxRetries);
    var r := CreateSession(m, opts, attempts, now);
    if r.value.Success? {
      WellKeyedInsert(m, r.value.value.code, r.value.value);
    }
  }

  // ---------------------------------------------------------------------
  // GetSession, DeleteSession, UpdateSessionData
  // ---------------------------------------------------------------------

  /** `GetSession`. */
  function GetSession(m: Manager, code: string, now: int): (r: Reply<Result<Session, SessionError>>)
    ensures !IsValidFormat(code) ==> r == Reply(m, Failure(ErrInvalidSessionCode))
    ensures IsValidFormat(code) && NormalizeCode(code) !in m.sessions ==> r == Reply(m, Failure(ErrSessionNotFound))
    ensures r.value == Failure(ErrSessionExpired) <==>
              IsValidFormat(code) && NormalizeCode(code) in m.sessions
              && IsExpired(m, m.sessions[NormalizeCode(code)], now)
    ensures r.value == Failure(ErrSessionExpired) ==>
              r.next == m.(sessions := m.sessions - {NormalizeCode(code)})
    ensures r.value.Success? <==>
              IsValidFormat(code) && NormalizeCode(code) in m.sessions
              && !IsExpired(m, m.sessions[NormalizeCode(code)], now)
    ensures r.value.Success? ==>
              var k := NormalizeCode(code);
              && r.value.value == m.sessions[k].(lastAccessed := now)
              && r.next == m.(sessions := m.sessions[k := r.value.value])
  {
    if code == "" then Reply(m, Failure(ErrInvalidSessionCode))
    else if !IsValidFormat(code) then Reply(m, Failure(ErrInvalidSessionCode))
    else
      var k := NormalizeCode(code);
      if k !in m.sessions then Reply(m, Failure(ErrSessionNotFound))
      else
        var s := m.sessions[k];
        if IsExpired(m, s, now) then Reply(m.(sessions := m.sessions - {k}), Failure(ErrSessionExpired))
        else
          var s' := s.(lastAccessed := now);
          Reply(m.(sessions := m.sessions[k := s']), Success(s'))
  }

  /** Lookup ignores letter case: codes that differ only in case get the
      same answer and leave the store in the same state. */
  lemma GetIgnoresCase(m: Manager, a: string, b: string, now: int)
    requires ToLower(a) == ToLower(b)
    ensures GetSession(m, a, now) == GetSession(m, b, now)
  {
    CaseInsensitive(a, b);
  }

  /** A session found expired is deleted: asking again finds nothing. */
  lemma ExpiredSessionIsGone(m: Manager, code: string, now: int, later: int)
    requires GetSession(m, code, now).value == Failure(ErrSessionExpired)
    ensures GetSession(GetSession(m, code, now).next, code, later).value == Failure(ErrSessionNotFound)
  {
  }

  /** A session just created is found by its code (in any letter case)
      until it expires, with its initial data. */
  lemma CreateThenGet(m: Manager, opts: Option<SessionOptions>, attempts: seq<Attempt>, now: int,
                      code: string, later: int)
    requires 0 <= Effective(m, opts).maxRetries < |attempts|
    requires IsValidFormat(attempts[0].candidate)
    requires CreateSession(m, opts, attempts, now).value.Success?
    requires ToLower(code) == CreateSession(m, opts, attempts, now).value.value.code
    requires later - now <= m.options.sessionTimeout
    ensures GetSession(CreateSession(m, opts, attempts, now).next, code, later).value.Success?
    ensures GetSession(CreateSession(m, opts, attempts, now).next, code, later).value.value.data
         == InitialData(Effective(m, opts))
  {
    var s := CreateSession(m, opts, attempts, now).value.value;
    assert SomeValid(IsValidFormat, attempts, 0, Effective(m, opts).maxRetries);
    ToLowerIdempotent(code);
    CaseInsensitive(code, s.code);
  }

  /** `DeleteSession`: true exactly when a well-formed code's normalised key
      was present; that key is gone afterwards and nothing else changes. */
  function DeleteSession(m: Manager, code: string): (r: Reply<bool>)
    ensures r.value <==> IsValidFormat(code) && NormalizeCode(code) in m.sessions
    ensures IsValidFormat(code) ==> r.next == m.(sessions := m.sessions - {NormalizeCode(code)})
    ensures !IsValidFormat(code) ==> r.next == m
  {
    if code == "" then Reply(m, false)
    else if !IsValidFormat(code) then Reply(m, false)
    else
      var k := NormalizeCode(code);
      var present := k in m.sessions;
      Reply(m.(sessions := m.sessions - {k}), present)
  }

  /** Deleting a session makes it unreachable. */
  lemma DeleteThenGet(m: Manager, code: string, now: int)
    requires IsValidFormat(code)
    ensures GetSession(DeleteSession(m, code).next, code, now).value == Failure(ErrSessionNotFound)
  {
  }

  /** `UpdateSessionData`. There is no format check: only the empty code is
      rejected as invalid. */
  function UpdateSessionData(m: Manager, code: string, patch: map<string, Json>, now: int)
    : (r: Reply<Outcome<SessionError>>)
    ensures code == "" ==> r == Reply(m, Fail(ErrInvalidSessionCode))
    ensures code != "" && NormalizeCode(code) !in m.sessions ==> r == Reply(m, Fail(ErrSessionNotFound))
    ensures r.value == Fail(ErrSessionExpired) <==>
              code != "" && NormalizeCode(code) in m.sessions && IsExpired(m, m.sessions[NormalizeCode(code)], now)
    ensures r.value == Fail(ErrSessionExpired) ==> r.next == m.(sessions := m.sessions - {NormalizeCode(code)})
    ensures r.value.Pass? ==>
              var k := NormalizeCode(code);
              && code != "" && k in m.sessions && !IsExpired(m, m.sessions[k], now)
              && k in r.next.sessions
              && r.next.options == m.options
              && r.next.sessions.Keys == m.sessions.Keys
              && (forall k' :: k' in m.sessions && k' != k ==> r.next.sessions[k'] == m.sessions[k'])
              && r.next.sessions[k].code == m.sessions[k].code
              && r.next.sessions[k].createdAt == m.sessions[k].createdAt
              && r.next.sessions[k].lastAccessed == now
              && r.next.sessions[k].data.Keys == m.sessions[k].data.Keys + patch.Keys
              && (forall key :: key in patch ==> r.next.sessions[k].data[key] == patch[key])
              && (forall key :: key in m.sessions[k].data && key !in patch ==>
                    r.next.sessions[k].data[key] == m.sessions[k].data[key])
  {
    if code == "" then Reply(m, Fail(ErrInvalidSessionCode))
    else
      var k := NormalizeCode(code);
      if k !in m.sessions then Reply(m, Fail(ErrSessionNotFound))
      else
        var s := m.sessions[k];
        if IsExpired(m, s, now) then Reply(m.(sessions := m.sessions - {k}), Fail(ErrSessionExpired))
        else
          var s' := s.(data := s.data + patch, lastAccessed := now);
          Reply(m.(sessions := m.sessions[k := s']), Pass)
  }

  /** In a well-keyed store a malformed, non-empty code is simply not found
      by `UpdateSessionData` (it is never reported as invalid). */
  lemma UpdateMalformedIsNotFound(m: Manager, code: string, patch: map<string, Json>, now: int)
    requires WellKeyed(m)
    requires code != "" && !IsValidFormat(code)
    ensures UpdateSessionData(m, code, patch, now) == Reply(m, Fail(ErrSessionNotFound))
  {
    ValidityIsNormalizationInvariant(code);
  }

  // ---------------------------------------------------------------------
  // Count, listing and cleanup
  // ---------------------------------------------------------------------

  /** `GetSessionCount`. */
  function GetSessionCount(m: Manager): nat {
    |m.sessions|
  }

  /** `ListSessions`: every stored code once, in map order. */
  method ListSessions(m: Manager) returns (codes: seq<string>)
    ensures |codes| == GetSessionCount(m)
    ensures forall c :: c in codes <==> c in m.sessions
    ensures Distinct(codes)
  {
    codes := Enumerate(m.sessions.Keys);
  }

  ghost function ExpiredKeys(m: Manager, now: int): set<string> {
    set k | k in m.sessions && IsExpired(m, m.sessions[k], now)
  }

  /** `Cleanup`: removes exactly the expired sessions and returns how many
      it removed; every other session is untouched. */
  function Cleanup(m: Manager, now: int): (r: Reply<nat>)
    ensures r.next.options == m.options
    ensures forall k :: k in r.next.sessions <==> k in m.sessions && !IsExpired(m, m.sessions[k], now)
    ensures forall k :: k in r.next.sessions ==> r.next.sessions[k] == m.sessions[k]
  {
    var kept := map k | k in m.sessions && !IsExpired(m, m.sessions[k], now) :: m.sessions[k];
    var gone := set k | k in m.sessions && IsExpired(m, m.sessions[k], now);
    Reply(m.(sessions := kept), |gone|)
  }

  /** The count `Cleanup` returns is the number of expired sessions, and
      together with the survivors it accounts for the whole store. */
  lemma CleanupCountsRemoved(m: Manager, now: int)
    ensures Cleanup(m, now).value == |ExpiredKeys(m, now)|
    ensures |Cleanup(m, now).next.sessions| + Cleanup(m, now).value == |m.sessions|
  {
    var r := Cleanup(m, now);
    var gone := ExpiredKeys(m, now);
    assert r.next.sessions.Keys == m.sessions.Keys - gone;
    assert m.sessions.Keys == r.next.sessions.Keys + gone;
  }

  /** A second sweep at the same instant removes nothing. */
  lemma CleanupIdempotent(m: Manager, now: int)
    ensures Cleanup(Cleanup(m, now).next, now).value == 0
    ensures Cleanup(Cleanup(m, now).next, now).next == Cleanup(m, now).next
  {
    var m1 := Cleanup(m, now).next;
    assert ExpiredKeys(m1, now) == {};
  }

  // ---------------------------------------------------------------------
  // The store invariant
  // ---------------------------------------------------------------------

  /** Storing a session under its own well-formed, normalised code keeps
      the store well keyed. */
  lemma WellKeyedInsert(m: Manager, k: string, s: Session)
    requires WellKeyed(m) && s.code == k
    requires IsValidFormat(k) && NormalizeCode(k) == k
    ensures WellKeyed(m.(sessions := m.sessions[k := s]))
  {
  }

  /** Removing sessions keeps the store well keyed. */
  lemma WellKeyedShrink(m: Manager, m': Manager)
    requires WellKeyed(m)
    requires forall k :: k in m'.sessions ==> k in m.sessions && m'.sessions[k] == m.sessions[k]
    ensures WellKeyed(m')
  {
    forall k' | k' in m'.sessions
      ensures m'.sessions[k'].code == k' && IsValidFormat(k') && NormalizeCode(k') == k'
    {
      assert k' in m.sessions;
    }
  }

  lemma GetPreservesWellKeyed(m: Manager, code: string, now: int)
    requires WellKeyed(m)
    ensures WellKeyed(GetSession(m, code, now).next)
  {
    var r := GetSession(m, code, now);
    if r.value.Success? {
      WellKeyedInsert(m, NormalizeCode(code), r.value.value);
    } else {
      WellKeyedShrink(m, r.next);
    }
  }

  lemma DeletePreservesWellKeyed(m: Manager, code: string)
    requires WellKeyed(m)
    ensures WellKeyed(DeleteSession(m, code).next)
  {
    WellKeyedShrink(m, DeleteSession(m, code).next);
  }

  lemma UpdatePreservesWellKeyed(m: Manager, code: string, patch: map<string, Json>, now: int)
    requires WellKeyed(m)
    ensures WellKeyed(UpdateSessionData(m, code, patch, now).next)
  {
    var r := UpdateSessionData(m, code, patch, now);
    if r.value.Pass? {
      var k := NormalizeCode(code);
      WellKeyedInsert(m, k, r.next.sessions[k]);
      assert r.next == m.(sessions := m.sessions[k := r.next.sessions[k]]);
    } else {
      WellKeyedShrink(m, r.next);
    }
  }

  lemma CleanupPreservesWellKeyed(m: Manager, now: int)
    requires WellKeyed(m)
    ensures WellKeyed(Cleanup(m, now).next)
  {
    var next := Cleanup(m, now).next;
    forall k | k in next.sessions
      ensures next.sessions[k].code == k && IsValidFormat(k) && NormalizeCode(k) == k
    {
      assert k in m.sessions && next.sessions[k] == m.sessions[k];
    }
  }
}

=== FILE: session_types.dfy ===
/** Sessions, session errors and session options
    (server/internal/session/types.go). */
module SessionTypes {
  import opened Wrappers
  import opened Json

  /** Durations and instants are counted in nanoseconds, Go's
      `time.Duration` unit. */
  const Second: int := 1_000_000_000
  const Hour: int := 3600 * Second

  /** A stored session. Instants are explicit integers; there is no clock. */
  datatype Session = Session(code: string, createdAt: int, lastAccessed: int, data: map<string, Json>)

  /** `SessionError`; `wrapped` is the text of the wrapped error (`Err`),
      `None` when `Err` is nil. */
  datatype SessionError = SessionError(code: string, message: string, wrapped: Option<string>)

  /** `SessionError.Error`: the message, followed by ": " and the wrapped
      error's text when there is one. */
  function ErrorText(e: SessionError): (r: string)
    ensures |e.message| <= |r| && r[..|e.message|] == e.message
    ensures r == e.message <==> e.wrapped.None?
    ensures e.wrapped.Some? ==> r[|e.message|..] == ": " + e.wrapped.value
  {
    match e.wrapped
    case None => e.message
    case Some(inner) => e.message + ": " + inner
  }

  /** `SessionError.Unwrap`. */
  function Unwrap(e: SessionError): (r: Option<string>)
    ensures r.None? <==> ErrorText(e) == e.message
    ensures r.Some? ==> ErrorText(e) == e.message + ": " + r.value
  {
    e.wrapped
  }

  const ErrSessionNotFound := SessionError("SESSION_NOT_FOUND", "session not found", None)
  const ErrSessionExpired := SessionError("SESSION_EXPIRED", "session has expired", None)
  const ErrInvalidSessionCode := SessionError("INVALID_SESSION_CODE", "invalid session code format", None)
  const ErrCodeGenerationFailed :=
    SessionError("CODE_GENERATION_FAILED", "failed to generate unique session code after maximum retries", None)

  /** The four sentinel errors, in declaration order. */
  function Sentinels(): seq<SessionError> {
    [ErrSessionNotFound, ErrSessionExpired, ErrInvalidSessionCode, ErrCodeGenerationFailed]
  }

  /** The sentinels carry pairwise distinct codes, wrap nothing, and print
      exactly their message. */
  lemma SentinelsAreDistinct()
    ensures forall i, j :: 0 <= i < j < |Sentinels()| ==> Sentinels()[i].code != Sentinels()[j].code
    ensures forall i :: 0 <= i < |Sentinels()| ==>
              Unwrap(Sentinels()[i]).None? && ErrorText(Sentinels()[i]) == Sentinels()[i].message
  {
  }

  /** `SessionOptions`; `initialData` is `None` for a nil map. */
  datatype SessionOptions = SessionOptions(maxRetries: int, sessionTimeout: int, initialData: Option<map<string, Json>>)

  /** `DefaultSessionOptions`: ten retries, a 24-hour timeout and an empty,
      non-nil initial-data map. */
  function DefaultSessionOptions(): (o: SessionOptions)
    ensures o.maxRetries == 10
    ensures o.sessionTimeout == 24 * 3600 * 1_000_000_000
    ensures o.initialData == Some(map[])
  {
    SessionOptions(10, 24 * Hour, Some(map[]))
  }
}

=== FILE: text.dfy ===
/** The slice of Go's `strings`, `unicode` and `fmt` packages the server core
    relies on, restated over `string = seq<char>` (one char per rune). */
module Text {
  import opened Wrappers

  // ---------------------------------------------------------------------
  // White space and trimming (strings.TrimSpace)
  // ---------------------------------------------------------------------

  /** Go's `unicode.IsSpace`; `fmt`'s scanner skips exactly the same runes. */
  predicate IsSpace(c: char) {
    || c == '\t' || c == '\n' || c == '\U{000B}' || c == '\U{000C}' || c == '\r' || c == ' '
    || c == '\U{0085}' || c == '\U{00A0}' || c == '\U{1680}'
    || ('\U{2000}' <= c <= '\U{200A}')
    || c == '\U{2028}' || c == '\U{2029}' || c == '\U{202F}' || c == '\U{205F}' || c == '\U{3000}'
  }

  predicate AllSpace(s: string) {
    forall i :: 0 <= i < |s| ==> IsSpace(s[i])
  }

  function TrimLeft(s: string): (r: string)
    ensures |r| <= |s| && r == s[|s| - |r|..]
    ensures |r| > 0 ==> !IsSpace(r[0])
    ensures forall i :: 0 <= i < |s| - |r| ==> IsSpace(s[i])
  {
    if |s| > 0 && IsSpace(s[0]) then TrimLeft(s[1..]) else s
  }

  function TrimRight(s: string): (r: string)
    ensures |r| <= |s| && r == s[..|r|]
    ensures |r| > 0 ==> !IsSpace(r[|r| - 1])
    ensures forall i :: |r| <= i < |s| ==> IsSpace(s[i])
  {
    if |s| > 0 && IsSpace(s[|s| - 1]) then TrimRight(s[..|s| - 1]) else s
  }

  /** `strings.TrimSpace`: drops leading and trailing white space. */
  function TrimSpace(s: string): (r: string)
    ensures |r| <= |s|
    ensures |r| > 0 ==> !IsSpace(r[0]) && !IsSpace(r[|r| - 1])
    ensures r == "" <==> AllSpace(s)
  {
    var l := TrimLeft(s);
    var r := TrimRight(l);
    assert r == "" ==> l == "";
    r
  }

  /** A string that neither starts nor ends with white space is its own trim. */
  lemma TrimSpaceFixed(s: string)
    requires |s| > 0 ==> !IsSpace(s[0]) && !IsSpace(s[|s| - 1])
    ensures TrimSpace(s) == s
  {
  }

  // ---------------------------------------------------------------------
  // ASCII lower-casing (strings.ToLower restricted to ASCII)
  // ---------------------------------------------------------------------

  predicate IsUpper(c: char) { 'A' <= c <= 'Z' }

  function LowerChar(c: char): (r: char)
    ensures !IsUpper(r)
    ensures IsSpace(r) <==> IsSpace(c)
    ensures r == c <==> !IsUpper(c)
  {
    if IsUpper(c) then (c as int - 'A' as int + 'a' as int) as char else c
  }

  function ToLower(s: string): (r: string)
    ensures |r| == |s|
    ensures forall i :: 0 <= i < |s| ==> r[i] == LowerChar(s[i])
  {
    seq(|s|, i requires 0 <= i < |s| => LowerChar(s[i]))
  }

  lemma ToLowerIdempotent(s: string)
    ensures ToLower(ToLower(s)) == ToLower(s)
  {
  }

  lemma ToLowerConcat(a: string, b: string)
    ensures ToLower(a + b) == ToLower(a) + ToLower(b)
  {
  }

  /** A string with no ASCII upper-case letter is unchanged by lower-casing. */
  lemma ToLowerFixed(s: string)
    requires forall i :: 0 <= i < |s| ==> !IsUpper(s[i])
    ensures ToLower(s) == s
  {
  }

  lemma {:induction false} TrimLeftLower(s: string)
    ensures TrimLeft(ToLower(s)) == ToLower(TrimLeft(s))
    decreases |s|
  {
    if |s| > 0 && IsSpace(s[0]) {
      assert ToLower(s)[1..] == ToLower(s[1..]);
      TrimLeftLower(s[1..]);
    }
  }

  lemma {:induction false} TrimRightLower(s: string)
    ensures TrimRight(ToLower(s)) == ToLower(TrimRight(s))
    decreases |s|
  {
    if |s| > 0 && IsSpace(s[|s| - 1]) {
      assert ToLower(s)[..|s| - 1] == ToLower(s[..|s| - 1]);
      TrimRightLower(s[..|s| - 1]);
    }
  }

  /** Trimming and lower-casing commute. */
  lemma TrimLowerCommute(s: string)
    ensures TrimSpace(ToLower(s)) == ToLower(TrimSpace(s))
  {
    TrimLeftLower(s);
    TrimRightLower(TrimLeft(s));
  }

  // ---------------------------------------------------------------------
  // Splitting and joining (strings.Split / strings.Join)
  // ---------------------------------------------------------------------

  function Join<T>(parts: seq<seq<T>>, sep: T): seq<T> {
    if |parts| == 0 then []
    else if |parts| == 1 then parts[0]
    else parts[0] + [sep] + Join(parts[1..], sep)
  }

  /** `strings.Split(s, sep)` for a one-element separator: the maximal
      separator-free pieces between separators, at least one of them
      (`Split("")` is `[""]`). */
  function Split<T(==)>(s: seq<T>, sep: T): (parts: seq<seq<T>>)
    ensures |parts| >= 1
    ensures forall i :: 0 <= i < |parts| ==> sep !in parts[i]
    ensures Join(parts, sep) == s
    decreases |s|
  {
    if |s| == 0 then [[]]
    else
      var rest := Split(s[1..], sep);
      if s[0] == sep then
        assert Join([[]] + rest, sep) == [] + [sep] + Join(rest, sep);
        [[]] + rest
      else
        var parts := [[s[0]] + rest[0]] + rest[1..];
        assert Join(parts, sep) == s by {
          if |rest| > 1 {
            assert parts[1..] == rest[1..];
            assert Join(rest, sep) == rest[0] + [sep] + Join(rest[1..], sep);
          }
        }
        parts
  }

  lemma {:induction false} SplitNoSeparator<T>(a: seq<T>, sep: T)
    requires sep !in a
    ensures Split(a, sep) == [a]
    decreases |a|
  {
    if |a| > 0 {
      SplitNoSeparator(a[1..], sep);
      assert [a[0]] + a[1..] == a;
    }
  }

  lemma {:induction false} SplitAfterPiece<T>(a: seq<T>, sep: T, b: seq<T>)
    requires sep !in a
    ensures Split(a + [sep] + b, sep) == [a] + Split(b, sep)
    decreases |a|
  {
    var s := a + [sep] + b;
    if |a| == 0 {
      assert s[1..] == b;
    } else {
      assert s[1..] == a[1..] + [sep] + b;
      SplitAfterPiece(a[1..], sep, b);
      assert [a[0]] + a[1..] == a;
    }
  }

  /** Joining one more piece appends the separator and the piece. */
  lemma {:induction false} JoinSnoc<T>(parts: seq<seq<T>>, p: seq<T>, sep: T)
    requires |parts| >= 1
    ensures Join(parts + [p], sep) == Join(parts, sep) + [sep] + p
    decreases |parts|
  {
    if |parts| > 1 {
      assert (parts + [p])[1..] == parts[1..] + [p];
      JoinSnoc(parts[1..], p, sep);
    } else {
      assert parts + [p] == [parts[0], p];
      assert [parts[0], p][1..] == [p];
    }
  }

  /** Splitting undoes joining when no piece contains the separator. */
  lemma {:induction false} SplitJoin<T>(parts: seq<seq<T>>, sep: T)
    requires |parts| >= 1
    requires forall i :: 0 <= i < |parts| ==> sep !in parts[i]
    ensures Split(Join(parts, sep), sep) == parts
    decreases |parts|
  {
    if |parts| == 1 {
      SplitNoSeparator(parts[0], sep);
    } else {
      SplitJoin(parts[1..], sep);
      SplitAfterPiece(parts[0], sep, Join(parts[1..], sep));
      assert [parts[0]] + parts[1..] == parts;
    }
  }

  /** `strings.Join` with a string separator. */
  function JoinText(parts: seq<string>, sep: string): string {
    if |parts| == 0 then ""
    else if |parts| == 1 then parts[0]
    else parts[0] + sep + JoinText(parts[1..], sep)
  }

  /** Joining one more string appends the separator and the string. */
  lemma {:induction false} JoinTextSnoc(parts: seq<string>, p: string, sep: string)
    requires |parts| >= 1
    ensures JoinText(parts + [p], sep) == JoinText(parts, sep) + sep + p
    decreases |parts|
  {
    if |parts| > 1 {
      assert (parts + [p])[1..] == parts[1..] + [p];
      JoinTextSnoc(parts[1..], p, sep);
    } else {
      assert parts + [p] == [parts[0], p];
      assert [parts[0], p][1..] == [p];
    }
  }

  // ---------------------------------------------------------------------
  // Decimal numerals (fmt's %d)
  // ---------------------------------------------------------------------

  predicate IsDigit(c: char) { '0' <= c <= '9' }

  predicate AllDigits(s: string) {
    forall i :: 0 <= i < |s| ==> IsDigit(s[i])
  }

  function DigitChar(d: nat): (c: char)
    requires d < 10
    ensures IsDigit(c)
  {
    ('0' as int + d) as char
  }

  function DigitValue(c: char): (d: nat)
    requires IsDigit(c)
    ensures d < 10
  {
    c as int - '0' as int
  }

  /** The numeral `%d` prints for a natural number: no sign, no leading zero. */
  function NatToDec(n: nat): (r: string)
    ensures |r| >= 1 && AllDigits(r)
    ensures n < 10 <==> |r| == 1
    ensures 10 <= n < 100 <==> |r| == 2
    decreases n
  {
    if n < 10 then [DigitChar(n)] else NatToDec(n / 10) + [DigitChar(n % 10)]
  }

  /** `%d` for any integer. */
  function IntToDec(n: int): string {
    if n < 0 then "-" + NatToDec(-n) else NatToDec(n)
  }

  /** The value of a decimal numeral, most significant digit first. */
  function DecValue(ds: string): nat
    requires AllDigits(ds)
  {
    if |ds| == 0 then 0 else DecValue(ds[..|ds| - 1]) * 10 + DigitValue(ds[|ds| - 1])
  }

  /** Reading back a printed natural number gives the number. */
  lemma {:induction false} DecValueOfNatToDec(n: nat)
    ensures DecValue(NatToDec(n)) == n
    decreases n
  {
    if n >= 10 {
      var d := NatToDec(n);
      assert d[..|d| - 1] == NatToDec(n / 10);
      DecValueOfNatToDec(n / 10);
    }
  }

  // ---------------------------------------------------------------------
  // UTF-8 length (Go's len on a string)
  // ---------------------------------------------------------------------

  function Utf8Len(c: char): (n: nat)
    ensures 1 <= n <= 4
  {
    if c < '\U{0080}' then 1
    else if c < '\U{0800}' then 2
    else if c < '\U{10000}' then 3
    else 4
  }

  /** The number of bytes of the UTF-8 encoding, which is what Go's `len`
      measures. */
  function ByteLen(s: string): (n: nat)
    ensures |s| <= n <= 4 * |s|
    ensures (forall i :: 0 <= i < |s| ==> s[i] < '\U{0080}') ==> n == |s|
  {
    if |s| == 0 then 0 else Utf8Len(s[0]) + ByteLen(s[1..])
  }

  // ---------------------------------------------------------------------
  // fmt.Sscanf(s, "%d", &n)
  // ---------------------------------------------------------------------

  /** The maximal run of decimal digits at the start of `s`. */
  function LeadingDigits(s: string): (d: string)
    ensures |d| <= |s| && d == s[..|d|]
    ensures AllDigits(d)
    ensures |d| < |s| ==> !IsDigit(s[|d|])
  {
    if |s| > 0 && IsDigit(s[0]) then [s[0]] + LeadingDigits(s[1..]) else []
  }

  /** The scanner's leading-space skip: white space other than a newline. */
  function SkipBlanks(s: string): (r: string)
    ensures |r| <= |s| && r == s[|s| - |r|..]
    ensures |r| > 0 ==> !IsSpace(r[0]) || r[0] == '\n'
  {
    if |s| > 0 && IsSpace(s[0]) && s[0] != '\n' then SkipBlanks(s[1..]) else s
  }

  /** What `fmt.Sscanf(s, "%d", &n)` stores in `n` when it reports one item
      scanned and no error: leading spaces are skipped (a newline among them is
      an error), then an optional sign and at least one decimal digit are read;
      anything after the digits is ignored. `None` stands for the error. */
  function ScanInt(s: string): Option<int> {
    ScanSigned(SkipBlanks(s))
  }

  /** Scanning once the leading blanks are gone. */
  function ScanSigned(t: string): Option<int> {
    if |t| > 0 && t[0] == '\n' then None
    else if |t| > 0 && t[0] == '+' then ScanDigits(t[1..], false)
    else if |t| > 0 && t[0] == '-' then ScanDigits(t[1..], true)
    else ScanDigits(t, false)
  }

  /** Scanning the digits after an optional sign. */
  function ScanDigits(u: string, negative: bool): Option<int> {
    var ds := LeadingDigits(u);
    if |ds| == 0 then None
    else if negative then Some(-(DecValue(ds) as int))
    else Some(DecValue(ds) as int)
  }

  lemma LeadingDigitsOfNumeral(d: string, rest: string)
    requires AllDigits(d)
    requires rest == [] || !IsDigit(rest[0])
    ensures LeadingDigits(d + rest) == d
    decreases |d|
  {
    if |d| > 0 {
      assert (d + rest)[1..] == d[1..] + rest;
      LeadingDigitsOfNumeral(d[1..], rest);
    }
  }

  /** Scanning a numeral followed by anything that does not start with a
      digit reads the numeral's value. */
  lemma ScanIntOfNumeral(d: string, rest: string)
    requires |d| > 0 && AllDigits(d)
    requires rest == [] || !IsDigit(rest[0])
    ensures ScanInt(d + rest) == Some(DecValue(d) as int)
  {
    NumeralHasNoBlanks(d, rest);
    NumeralIsUnsigned(d, rest);
    LeadingDigitsOfNumeral(d, rest);
  }

  lemma NumeralHasNoBlanks(d: string, rest: string)
    requires |d| > 0 && AllDigits(d)
    ensures SkipBlanks(d + rest) == d + rest
  {
    assert (d + rest)[0] == d[0];
    assert !IsSpace(d[0]);
  }

  lemma NumeralIsUnsigned(d: string, rest: string)
    requires |d| > 0 && AllDigits(d)
    ensures ScanSigned(d + rest) == ScanDigits(d + rest, false)
  {
    assert (d + rest)[0] == d[0];
  }

  /** Scanning a printed natural number, followed by anything that does not
      start with a digit, reads the number back. */
  lemma ScanIntOfNatToDec(n: nat, rest: string)
    requires rest == [] || !IsDigit(rest[0])
    ensures ScanInt(NatToDec(n) + rest) == Some(n)
  {
    ScanIntOfNumeral(NatToDec(n), rest);
    DecValueOfNatToDec(n);
  }

  /** Scanning a printed integer of either sign, followed by anything that
      does not start with a digit, reads the integer back. */
  lemma ScanIntOfIntToDec(n: int, rest: string)
    requires rest == [] || !IsDigit(rest[0])
    ensures ScanInt(IntToDec(n) + rest) == Some(n)
  {
    if n < 0 {
      ScanIntOfNegative(n, rest);
    } else {
      assert IntToDec(n) == NatToDec(n);
      ScanIntOfNatToDec(n, rest);
    }
  }

  lemma ScanIntOfNegative(n: int, rest: string)
    requires n < 0
    requires rest == [] || !IsDigit(rest[0])
    ensures ScanInt(IntToDec(n) + rest) == Some(n)
  {
    var d := NatToDec(-n);
    var u := d + rest;
    ScanDigitsOfNumeral(d, rest);
    DecValueOfNatToDec(-n);
    assert ScanDigits(u, true) == Some(n);
    NegativeDecimal(n, rest);
    ScanNegative(IntToDec(n) + rest, u);
  }

  lemma NegativeDecimal(n: int, rest: string)
    requires n < 0
    ensures IntToDec(n) + rest == "-" + (NatToDec(-n) + rest)
  {
    var m := IntToDec(n);
    assert m == "-" + NatToDec(-n);
  }

  /** Negated digits scan to the negated value of the numeral. */
  lemma ScanDigitsOfNumeral(d: string, rest: string)
    requires |d| > 0 && AllDigits(d)
    requires rest == [] || !IsDigit(rest[0])
    ensures ScanDigits(d + rest, true) == Some(-(DecValue(d) as int))
  {
    LeadingDigitsOfNumeral(d, rest);
    var ds := LeadingDigits(d + rest);
    assert ds == d && |ds| != 0;
  }

  /** A leading minus sign is read as the sign of the digits after it. */
  lemma ScanNegative(t: string, u: string)
    requires t == "-" + u
    ensures ScanInt(t) == ScanDigits(u, true)
  {
    assert t[0] == '-' && !IsSpace(t[0]);
    assert SkipBlanks(t) == t;
    assert t[1..] == u;
  }
}

=== FILE: wrappers.dfy ===
/** Failure-compatible wrappers used throughout the model in place of Go's
    nil pointers and `error` returns. */
module Wrappers {

  /** A value that may be absent (a Go nil pointer or a missing map entry). */
  datatype Option<+T> = None | Some(value: T)

  /** A value or the error that replaced it (Go's `(T, error)` pair). */
  datatype Result<+R, +E> = Success(value: R) | Failure(error: E)

  /** An error or nothing (a Go function that returns only `error`). */
  datatype Outcome<+E> = Pass | Fail(error: E)
}

=== FILE: ws_client.dfy ===
/** A connection's outbound queue and the client-side logic around it
    (server/internal/websocket/client.go): non-blocking enqueue, JSON-RPC
    message processing and the writer's batching of queued messages into
    one text frame. */
module WsClient {
  import opened Wrappers
  import opened Json
  import opened Text
  import opened RpcTypes
  import opened RpcRouter

  const Second: int := 1_000_000_000

  // Timing constants, in nanoseconds.
  const WriteWait: int := 10 * Second
  const PongWait: int := 60 * Second
  const PingPeriod: int := (PongWait * 9) / 10
  /** The read limit of the reader loop; reading is not part of this model,
      so nothing here consults it. */
  const MaxMessageSize: int := 512

  /** The buffer size of a client's send channel. */
  const SendCapacity: nat := 256

  /** Pings go out strictly before the peer's pong deadline. */
  lemma PingBeforePongDeadline()
    ensures PingPeriod < PongWait
    ensures PingPeriod == 54 * Second
  {
  }

  /** A send channel: the buffered messages, oldest first, and whether it
      has been closed. */
  datatype Queue = Queue(msgs: seq<Bytes>, closed: bool)

  /** A fresh channel: empty and open. */
  const EmptyQueue: Queue := Queue([], false)

  predicate Bounded(q: Queue) {
    |q.msgs| <= SendCapacity
  }

  /** `Send` (a send with a `default` branch): the message is appended when
      there is room and dropped otherwise. Sending on a closed channel
      panics, so the channel must be open. */
  function Send(q: Queue, m: Bytes): (r: Queue)
    requires !q.closed
    ensures !r.closed
    ensures |q.msgs| < SendCapacity ==> r.msgs == q.msgs + [m]
    ensures |q.msgs| >= SendCapacity ==> r == q
    ensures Bounded(q) ==> Bounded(r)
  {
    if |q.msgs| < SendCapacity then Queue(q.msgs + [m], false) else q
  }

  /** A full queue drops every further message. */
  lemma {:induction false} SendToFullQueueDrops(q: Queue, ms: seq<Bytes>)
    requires !q.closed && |q.msgs| >= SendCapacity
    ensures SendAll(q, ms) == q
    decreases ms
  {
    if |ms| > 0 {
      SendToFullQueueDrops(q, ms[1..]);
    }
  }

  /** Sending several messages in turn. */
  function SendAll(q: Queue, ms: seq<Bytes>): Queue
    requires !q.closed
    decreases ms
  {
    if |ms| == 0 then q else SendAll(Send(q, ms[0]), ms[1..])
  }

  /** `sendJSONRPCError`'s response: the given code and message, with the
      details as data when they are non-empty. */
  function ErrorReply(id: Json, e: Error, details: string): (r: Response)
    ensures IsError(r) && r.id == id && r.jsonrpc == Version
    ensures r.error.value.code == e.code && r.error.value.message == e.message
    ensures details != "" ==> r.error.value.data == JStr(details)
    ensures details == "" ==> r.error.value == e
  {
    if details != "" then NewErrorResponse(NewErrorWithData(e.code, e.message, JStr(details)), id)
    else NewErrorResponse(e, id)
  }

  /** `sendJSONRPCError`; `encode` is `json.Marshal`. */
  function SendJsonRpcError(q: Queue, id: Json, e: Error, details: string, encode: Response -> Bytes): (r: Queue)
    requires !q.closed
    ensures |q.msgs| < SendCapacity ==> r.msgs == q.msgs + [encode(ErrorReply(id, e, details))]
    ensures |q.msgs| >= SendCapacity ==> r == q
  {
    Send(q, encode(ErrorReply(id, e, details)))
  }

  /** `processJSONRPCMessage`; `None` is a nil router, and `decode` and
      `encode` are the JSON codec `RouteJSON` uses. */
  function ProcessMessage(q: Queue, router: Option<Router>, message: Bytes,
                          decode: Bytes -> Option<Request>, encode: Response -> Bytes): (r: Queue)
    requires !q.closed
    ensures router.None? ==>
              r == Send(q, encode(NewErrorResponse(NewErrorWithData(InternalError, "Internal error",
                                                                    JStr("JSON-RPC router not available")), JNull)))
    ensures router.Some? && RouteJSON(router.value, message, decode, encode).None? ==> r == q
    ensures router.Some? && RouteJSON(router.value, message, decode, encode).Some? ==>
              r == Send(q, RouteJSON(router.value, message, decode, encode).value)
    ensures |r.msgs| <= |q.msgs| + 1 && !r.closed
  {
    if router.None? then SendJsonRpcError(q, JNull, ErrInternal, "JSON-RPC router not available", encode)
    else
      match RouteJSON(router.value, message, decode, encode)
      case None => q
      case Some(bytes) => Send(q, bytes)
  }

  /** A notification leaves the queue as it was. */
  lemma NotificationQueuesNothing(q: Queue, router: Router, message: Bytes,
                                  decode: Bytes -> Option<Request>, encode: Response -> Bytes)
    requires !q.closed
    requires decode(message).Some?
    requires var req := decode(message).value;
             req.jsonrpc == Version && req.methodName != "" && req.id == JNull
    ensures ProcessMessage(q, Some(router), message, decode, encode) == q
  {
    NotificationsNeverAnswered(router, decode(message).value);
  }

  /** What one turn of the writer puts on the wire. */
  datatype Frame = TextFrame(payload: Bytes) | CloseFrame

  /** One turn of the writer loop on a queue it can read from (a blocked
      writer is not a step). A closed, drained channel yields the close
      frame. Otherwise the oldest message is taken, and the `n` messages
      buffered at that moment follow it, each after a newline. */
  method WriterStep(q: Queue) returns (frame: Frame, rest: Queue)
    requires |q.msgs| > 0 || q.closed
    ensures |q.msgs| == 0 ==> frame == CloseFrame && rest == q
    ensures |q.msgs| > 0 ==> frame == TextFrame(Join(q.msgs, Newline)) && rest == Queue([], q.closed)
  {
    if |q.msgs| == 0 {
      return CloseFrame, q;
    }
    var payload := q.msgs[0];
    var n := |q.msgs| - 1;
    var i := 0;
    while i < n
      invariant 0 <= i <= n
      invariant payload == Join(q.msgs[..i + 1], Newline)
    {
      JoinSnoc(q.msgs[..i + 1], q.msgs[i + 1], Newline);
      assert q.msgs[..i + 1] + [q.msgs[i + 1]] == q.msgs[..i + 2];
      payload := payload + [Newline] + q.msgs[i + 1];
      i := i + 1;
    }
    assert q.msgs[..n + 1] == q.msgs;
    return TextFrame(payload), Queue([], q.closed);
  }

  /** The peer recovers the batched messages by splitting the frame on
      newlines, provided no message contains one. */
  lemma BatchSplitsBack(msgs: seq<Bytes>)
    requires |msgs| > 0
    requires forall i :: 0 <= i < |msgs| ==> Newline !in msgs[i]
    ensures Split(Join(msgs, Newline), Newline) == msgs
  {
    SplitJoin(msgs, Newline);
  }
}

=== FILE: ws_hub.dfy ===
/** The hub's connection registry (server/internal/websocket/hub.go): the
    set of connected clients, the index from session code to client, and
    each client's send queue. Each operation is one atomic step of the
    hub; the goroutine and channel hand-off around them are not modelled. */
module WsHub {
  import opened Json
  import opened Collections
  import opened WsClient

  /** A connection's identity: Go compares clients by pointer, so a
      client is its allocation number together with its session code. */
  datatype Client = Client(id: nat, code: string)

  datatype Hub = Hub(clients: set<Client>,
                     sessions: map<string, Client>,
                     queues: map<Client, Queue>,
                     nextId: nat)

  datatype Fresh = Fresh(hub: Hub, client: Client)

  /** The state every hub operation keeps: the session index points at
      registered clients under their own code, registered clients can be
      sent to, and every queue belongs to an allocated client and respects
      the channel's capacity. */
  ghost predicate Inv(h: Hub) {
    (forall k :: k in h.sessions ==> h.sessions[k] in h.clients && h.sessions[k].code == k) &&
    (forall c :: c in h.clients ==> c in h.queues && !h.queues[c].closed) &&
    (forall c :: c in h.queues ==> c.id < h.nextId && Bounded(h.queues[c]))
  }

  function NewHub(): (h: Hub)
    ensures Inv(h) && h.clients == {} && h.sessions == map[]
  {
    Hub({}, map[], map[], 0)
  }

  /** `NewClient`: a new connection with an empty, open queue of capacity
      `SendCapacity`; it is not registered. */
  function NewClient(h: Hub, code: string): (r: Fresh)
    ensures r.client.code == code
    ensures Inv(h) ==> r.client !in h.queues
    ensures r.hub.queues == h.queues[r.client := EmptyQueue]
    ensures r.hub.clients == h.clients && r.hub.sessions == h.sessions
    ensures Inv(h) ==> Inv(r.hub)
  {
    var c := Client(h.nextId, code);
    Fresh(Hub(h.clients, h.sessions, h.queues[c := EmptyQueue], h.nextId + 1), c)
  }

  /** `registerClient`: the client joins the registry and becomes the
      holder of its session code, displacing any earlier holder. */
  function Register(h: Hub, c: Client): (r: Hub)
    requires c in h.queues
    ensures r.clients == h.clients + {c}
    ensures r.sessions.Keys == h.sessions.Keys + {c.code} && r.sessions[c.code] == c
    ensures forall k :: k in h.sessions && k != c.code ==> r.sessions[k] == h.sessions[k]
    ensures r.queues == h.queues
  {
    Hub(h.clients + {c}, h.sessions[c.code := c], h.queues, h.nextId)
  }

  /** The `select` that `unregisterClient` uses to "close the channel if
      it is not already closed". A receive is ready whenever a message is
      buffered, so a non-empty queue loses its oldest message and stays as
      it was otherwise; only an empty open queue is closed. */
  function CloseUnlessReadable(q: Queue): (r: Queue)
    ensures |q.msgs| > 0 ==> r.msgs == q.msgs[1..] && r.closed == q.closed
    ensures |q.msgs| == 0 ==> r == Queue([], true)
  {
    if |q.msgs| > 0 then Queue(q.msgs[1..], q.closed)
    else if q.closed then q
    else Queue([], true)
  }

  /** `unregisterClient`: a registered client leaves the registry, the
      entry for its session code is deleted whoever it points to, and its
      queue goes through `CloseUnlessReadable`. An unknown client changes
      nothing. */
  function Unregister(h: Hub, c: Client): (r: Hub)
    ensures c !in h.clients ==> r == h
    ensures c in h.clients ==> r.clients == h.clients - {c} && r.sessions == h.sessions - {c.code}
    ensures c in h.clients && c in h.queues ==> r.queues == h.queues[c := CloseUnlessReadable(h.queues[c])]
    ensures r.nextId == h.nextId && r.queues.Keys == h.queues.Keys
  {
    if c !in h.clients then h
    else
      var queues := if c in h.queues then h.queues[c := CloseUnlessReadable(h.queues[c])] else h.queues;
      Hub(h.clients - {c}, h.sessions - {c.code}, queues, h.nextId)
  }

  /** Only client `c` and its queue are affected by a step on `c`; the
      session index only loses entries. */
  ghost predicate OnlyTouches(h: Hub, r: Hub, c: Client) {
    r.nextId == h.nextId &&
    r.queues.Keys == h.queues.Keys &&
    (forall d :: d in h.queues && d != c ==> r.queues[d] == h.queues[d]) &&
    (forall d :: d != c ==> (d in r.clients <==> d in h.clients)) &&
    (forall k :: k in r.sessions ==> k in h.sessions && r.sessions[k] == h.sessions[k])
  }

  /** The full-queue branch of `SendToSession` and `broadcastMessage`:
      the hub closes the channel and then unregisters the client. Closing
      a closed channel panics, so the queue must be open. */
  function Evict(h: Hub, c: Client): (r: Hub)
    requires c in h.queues && !h.queues[c].closed
    ensures c !in r.clients && r.sessions == (if c in h.clients then h.sessions - {c.code} else h.sessions)
    ensures c in r.queues && r.queues[c].closed
    ensures c in h.clients && |h.queues[c].msgs| > 0 ==> r.queues[c].msgs == h.queues[c].msgs[1..]
    ensures c !in h.clients ==> r.queues[c].msgs == h.queues[c].msgs
    ensures OnlyTouches(h, r, c)
  {
    var closed := h.(queues := h.queues[c := Queue(h.queues[c].msgs, true)]);
    Unregister(closed, c)
  }

  /** One client's share of a send: the message is queued when there is
      room, and the client is evicted otherwise. */
  function Deliver(h: Hub, c: Client, m: Bytes): (r: Hub)
    requires c in h.queues && !h.queues[c].closed
    ensures |h.queues[c].msgs| < SendCapacity ==>
              r == h.(queues := h.queues[c := Queue(h.queues[c].msgs + [m], false)])
    ensures |h.queues[c].msgs| >= SendCapacity ==> r == Evict(h, c)
    ensures OnlyTouches(h, r, c)
  {
    var q := h.queues[c];
    if |q.msgs| < SendCapacity then h.(queues := h.queues[c := Send(q, m)])
    else Evict(h, c)
  }

  /** `SendToSession`: an unknown code is ignored; otherwise the holder
      of the code gets the message or is evicted. Sending on, or closing,
      a closed channel panics, so the holder's queue must be open. */
  function SendToSession(h: Hub, code: string, m: Bytes): (r: Hub)
    requires code in h.sessions ==> h.sessions[code] in h.queues && !h.queues[h.sessions[code]].closed
    ensures code !in h.sessions ==> r == h
    ensures code in h.sessions ==> OnlyTouches(h, r, h.sessions[code])
    ensures code in h.sessions && |h.queues[h.sessions[code]].msgs| < SendCapacity ==>
              r.queues[h.sessions[code]].msgs == h.queues[h.sessions[code]].msgs + [m] &&
              r.clients == h.clients && r.sessions == h.sessions
    ensures code in h.sessions && |h.queues[h.sessions[code]].msgs| >= SendCapacity ==>
              h.sessions[code] !in r.clients && r.queues[h.sessions[code]].closed
    ensures Inv(h) && code in h.sessions && |h.queues[h.sessions[code]].msgs| >= SendCapacity ==>
              r.sessions == h.sessions - {code}
  {
    if code !in h.sessions then h else Deliver(h, h.sessions[code], m)
  }

  /** The delivery loop of `broadcastMessage` over a snapshot `order` of
      the clients. */
  function BroadcastOver(h: Hub, m: Bytes, order: seq<Client>): (r: Hub)
    requires Distinct(order)
    requires forall i :: 0 <= i < |order| ==> order[i] in h.queues && !h.queues[order[i]].closed
    decreases |order|
  {
    if |order| == 0 then h
    else
      var h1 := Deliver(h, order[0], m);
      assert forall i :: 1 <= i < |order| ==> order[i] != order[0];
      BroadcastOver(h1, m, order[1..])
  }

  /** A broadcast over `order` leaves every client outside `order`
      alone and only removes entries from the session index. */
  lemma {:induction false} BroadcastOverFrame(h: Hub, m: Bytes, order: seq<Client>)
    requires Distinct(order)
    requires forall i :: 0 <= i < |order| ==> order[i] in h.queues && !h.queues[order[i]].closed
    ensures var r := BroadcastOver(h, m, order);
            r.queues.Keys == h.queues.Keys &&
            (forall c :: c in h.queues && c !in order ==>
               r.queues[c] == h.queues[c] && (c in r.clients <==> c in h.clients)) &&
            (forall k :: k in r.sessions ==> k in h.sessions && r.sessions[k] == h.sessions[k])
    decreases |order|
  {
    if |order| > 0 {
      var h1 := Deliver(h, order[0], m);
      assert forall i :: 1 <= i < |order| ==> order[i] != order[0];
      BroadcastOverFrame(h1, m, order[1..]);
    }
  }

  /** Each client in `order` with room gets the message once and keeps
      its registration. */
  lemma {:induction false} BroadcastOverQueues(h: Hub, m: Bytes, order: seq<Client>)
    requires Distinct(order)
    requires forall i :: 0 <= i < |order| ==> order[i] in h.queues && !h.queues[order[i]].closed
    ensures var r := BroadcastOver(h, m, order);
            forall c :: c in order && |h.queues[c].msgs| < SendCapacity ==>
              c in r.queues && r.queues[c].msgs == h.queues[c].msgs + [m] &&
              (c in r.clients <==> c in h.clients)
    decreases |order|
  {
    if |order| > 0 {
      var c := order[0];
      var h1 := Deliver(h, c, m);
      assert forall i :: 1 <= i < |order| ==> order[i] != c;
      BroadcastOverQueues(h1, m, order[1..]);
      BroadcastOverFrame(h1, m, order[1..]);
      assert c !in order[1..];
    }
  }

  /** Each client in `order` whose queue is full is evicted. */
  lemma {:induction false} BroadcastOverEvicts(h: Hub, m: Bytes, order: seq<Client>)
    requires Distinct(order)
    requires forall i :: 0 <= i < |order| ==> order[i] in h.queues && !h.queues[order[i]].closed
    ensures var r := BroadcastOver(h, m, order);
            forall c :: c in order && |h.queues[c].msgs| >= SendCapacity ==>
              c !in r.clients && c in r.queues && r.queues[c].closed
    decreases |order|
  {
    if |order| > 0 {
      var c := order[0];
      var h1 := Deliver(h, c, m);
      assert forall i :: 1 <= i < |order| ==> order[i] != c;
      BroadcastOverEvicts(h1, m, order[1..]);
      BroadcastOverFrame(h1, m, order[1..]);
      assert c !in order[1..];
    }
  }

  /** Each registered client in `order` whose queue is full loses its
      code from the session index: unregistering deletes the entry, and
      later steps only delete entries. */
  lemma {:induction false} BroadcastOverDropsCodes(h: Hub, m: Bytes, order: seq<Client>)
    requires Distinct(order)
    requires forall i :: 0 <= i < |order| ==> order[i] in h.queues && !h.queues[order[i]].closed
    ensures var r := BroadcastOver(h, m, order);
            forall c :: c in order && c in h.clients && |h.queues[c].msgs| >= SendCapacity ==>
              c.code !in r.sessions
    decreases |order|
  {
    if |order| > 0 {
      var c := order[0];
      var h1 := Deliver(h, c, m);
      assert forall i :: 1 <= i < |order| ==> order[i] != c;
      BroadcastOverDropsCodes(h1, m, order[1..]);
      BroadcastOverFrame(h1, m, order[1..]);
    }
  }

  /** A session entry survives the broadcast, unchanged, when no registered
      client in `order` holding its code is full: only evictions delete
      entries. */
  lemma {:induction false} BroadcastOverKeeps(h: Hub, m: Bytes, order: seq<Client>)
    requires Distinct(order)
    requires forall i :: 0 <= i < |order| ==> order[i] in h.queues && !h.queues[order[i]].closed
    ensures var r := BroadcastOver(h, m, order);
            forall k :: k in h.sessions
                        && (forall c :: c in order && c in h.clients && c.code == k ==> |h.queues[c].msgs| < SendCapacity) ==>
              k in r.sessions && r.sessions[k] == h.sessions[k]
    decreases |order|
  {
    if |order| > 0 {
      var c := order[0];
      var h1 := Deliver(h, c, m);
      assert forall i :: 1 <= i < |order| ==> order[i] != c;
      BroadcastOverKeeps(h1, m, order[1..]);
      var r := BroadcastOver(h, m, order);
      assert r == BroadcastOver(h1, m, order[1..]);
      forall k | k in h.sessions
                 && (forall d :: d in order && d in h.clients && d.code == k ==> |h.queues[d].msgs| < SendCapacity)
        ensures k in r.sessions && r.sessions[k] == h.sessions[k]
      {
        assert k in h1.sessions && h1.sessions[k] == h.sessions[k];
        forall d | d in order[1..] && d in h1.clients && d.code == k
          ensures |h1.queues[d].msgs| < SendCapacity
        {
          assert d in order && d != c;
        }
      }
    }
  }

  /** `broadcastMessage`: the message goes to every client registered at
      the start, in some order; a client whose queue is full is evicted.
      Clients that were not registered are left alone. */
  method Broadcast(h: Hub, m: Bytes) returns (r: Hub)
    requires forall c :: c in h.clients ==> c in h.queues && !h.queues[c].closed
    ensures r.queues.Keys == h.queues.Keys
    ensures forall c :: c in h.clients && |h.queues[c].msgs| < SendCapacity ==>
              c in r.clients && r.queues[c].msgs == h.queues[c].msgs + [m]
    ensures forall c :: c in h.clients && |h.queues[c].msgs| >= SendCapacity ==>
              c !in r.clients && r.queues[c].closed
    ensures forall c :: c in h.queues && c !in h.clients ==> c !in r.clients && r.queues[c] == h.queues[c]
    ensures forall k :: k in r.sessions ==> k in h.sessions && r.sessions[k] == h.sessions[k]
    ensures forall c :: c in h.clients && |h.queues[c].msgs| >= SendCapacity ==> c.code !in r.sessions
    ensures forall k :: k in h.sessions
                        && (forall c :: c in h.clients && c.code == k ==> |h.queues[c].msgs| < SendCapacity) ==>
              k in r.sessions && r.sessions[k] == h.sessions[k]
    ensures Inv(h) ==> Inv(r)
  {
    var order := Enumerate(h.clients);
    r := BroadcastOver(h, m, order);
    BroadcastOverFrame(h, m, order);
    BroadcastOverQueues(h, m, order);
    BroadcastOverEvicts(h, m, order);
    BroadcastOverDropsCodes(h, m, order);
    BroadcastOverKeeps(h, m, order);
    if Inv(h) {
      BroadcastOverPreservesInv(h, m, order);
    }
  }

  function GetClientCount(h: Hub): (n: nat)
  {
    |h.clients|
  }

  /** `GetSessionCodes`: every code in the session index, once each. */
  method GetSessionCodes(h: Hub) returns (codes: seq<string>)
    ensures forall k :: k in codes <==> k in h.sessions
    ensures Distinct(codes) && |codes| == |h.sessions|
  {
    codes := Enumerate(h.sessions.Keys);
  }

  function HasSession(h: Hub, code: string): (b: bool)
  {
    code in h.sessions
  }

  /** A newly created and registered client holds its session code and
      adds one to the client count. */
  lemma RegisterNewClient(h: Hub, code: string)
    requires Inv(h)
    ensures var f := NewClient(h, code);
            var r := Register(f.hub, f.client);
            Inv(r) && HasSession(r, code) && GetClientCount(r) == GetClientCount(h) + 1
  {
    var f := NewClient(h, code);
    assert f.client !in h.clients;
  }

  lemma RegisterPreservesInv(h: Hub, c: Client)
    requires Inv(h) && c in h.queues && !h.queues[c].closed
    ensures Inv(Register(h, c))
  {
  }

  lemma UnregisterPreservesInv(h: Hub, c: Client)
    requires Inv(h)
    ensures Inv(Unregister(h, c))
  {
    if c in h.clients {
      var r := Unregister(h, c);
      assert Bounded(CloseUnlessReadable(h.queues[c]));
    }
  }

  lemma SendToSessionPreservesInv(h: Hub, code: string, m: Bytes)
    requires Inv(h)
    ensures Inv(SendToSession(h, code, m))
  {
    if code in h.sessions {
      var c := h.sessions[code];
      var r := SendToSession(h, code, m);
      if |h.queues[c].msgs| >= SendCapacity {
        var closed := h.(queues := h.queues[c := Queue(h.queues[c].msgs, true)]);
        assert r == Unregister(closed, c);
        assert Bounded(CloseUnlessReadable(closed.queues[c]));
      }
    }
  }

  /** Broadcast leaves the invariant intact: it only queues to, or evicts,
      registered clients. */
  lemma {:induction false} BroadcastOverPreservesInv(h: Hub, m: Bytes, order: seq<Client>)
    requires Inv(h) && Distinct(order)
    requires forall i :: 0 <= i < |order| ==> order[i] in h.clients
    ensures Inv(BroadcastOver(h, m, order))
    decreases |order|
  {
    if |order| > 0 {
      var c := order[0];
      var h1 := Deliver(h, c, m);
      if |h.queues[c].msgs| >= SendCapacity {
        var closed := h.(queues := h.queues[c := Queue(h.queues[c].msgs, true)]);
        assert Bounded(CloseUnlessReadable(closed.queues[c]));
      }
      assert Inv(h1);
      assert forall i :: 1 <= i < |order| ==> order[i] != c;
      BroadcastOverPreservesInv(h1, m, order[1..]);
    }
  }

  /** Unregistering a client that lost its session code to a newer
      connection deletes the newer connection's index entry: the newer
      client stays registered but can no longer be reached by code. */
  lemma UnregisterDropsNewerHolder(h: Hub, earlier: Client, newer: Client)
    requires earlier in h.clients && newer in h.clients && earlier != newer && earlier.code == newer.code
    ensures var r := Unregister(h, earlier);
            newer in r.clients && !HasSession(r, newer.code)
  {
  }

  /** Unregistering a client with queued messages discards the oldest one
      and leaves the queue open, so the writer never sends a close frame. */
  lemma UnregisterConsumesQueuedMessage(h: Hub, c: Client)
    requires c in h.clients && c in h.queues && !h.queues[c].closed && |h.queues[c].msgs| > 0
    ensures var r := Unregister(h, c);
            !r.queues[c].closed && r.queues[c].msgs == h.queues[c].msgs[1..]
  {
  }

  /** An eviction therefore leaves a closed queue one message short of
      capacity. */
  lemma EvictionLeavesOneLess(h: Hub, code: string, m: Bytes)
    requires Inv(h) && code in h.sessions && |h.queues[h.sessions[code]].msgs| == SendCapacity
    ensures var r := SendToSession(h, code, m);
            var q := r.queues[h.sessions[code]];
            q.closed && |q.msgs| == SendCapacity - 1
  {
  }
}
